=== FILE: README.md ===
# IoT anomaly detection backend — a Dafny model

This project models the core of an IoT anomaly-detection backend and
proves properties of the model. Sensors post temperature, humidity and
pressure readings. The backend keeps a bounded history of the last three
readings per sensor. Once a sensor's history is full, it flattens the
history into a nine-element lagged feature vector, newest reading first.
An outlier model scores that vector, and each outlier verdict leads to one
append attempt on an anomaly ledger held by a smart contract. A read
endpoint renders the ledger's records.

Two offline scripts feed the system:

- The training-corpus builder pushes simulated normal readings through
  the same kind of per-sensor buffer and emits one row per full buffer.
- The traffic simulator keeps a per-sensor countdown that decides when an
  injected anomaly starts and stops, and distorts the readings while one
  is active.

Modules, one file each:

- `Optional` (`optional.dfy`): `Option` and `Result`.
- `Window` (`window.dfy`): the shared constants (3 fields per reading,
  3 readings per window, 9 features). It also holds the bounded FIFO
  `Push` (a `deque(maxlen=3)`), the buffer a stream builds (`History`),
  and the two flattenings. `Flatten` is oldest first, as the corpus
  builder iterates the buffer. `FeatureVector` is newest first, as the
  endpoint builds its vector.
- `Ledger` (`ledger.dfy`): anomaly records, the contract's 5-tuple
  layout, an append that is mined or not, and the `/anomalies` read
  endpoint.
- `Ingestion` (`ingestion.dfy`): the `/sensor_data` endpoint as a pure
  step function `Receive` over a `State` (the per-sensor windows and the
  ledger). It also holds replays of many steps, which show that a new
  sensor warms up for two accepted readings and is then scored on its
  last three, newest first, however its posts are interleaved with other
  sensors' posts and with rejected requests.
- `Corpus` (`corpus.dfy`): the corpus collection loop as methods with
  loop invariants, plus the width check the backend applies to the corpus
  before training.
- `Simulator` (`simulator.dfy`): `inject_anomaly`, the per-interval
  countdown update, the readings of a run of intervals, and the length of
  an injected anomaly.

Whatever the step cannot compute itself becomes a parameter:

- the clock;
- the trained model's verdict on a vector (`Env.model`);
- Python's `int(round(.))` of the temperature;
- the formatting of the explanation text;
- whether the ledger transaction is mined with status 1 (`Env.mined`);
- the rendering of a timestamp as a date, which may fail;
- the corpus builder's reading generator;
- the simulator's random draws.

Measurements are exact reals.

Three behaviours of the code the model keeps:

- The endpoint answers "Anomaly Detected and Logged" with status 200 for
  every outlier. It does this whether or not the append was mined, reverted
  or raised. The code has no separate log-failed outcome, so
  `Receive` reports `AnomalyLogged` in all three cases and only the ledger
  tells them apart (`Ingestion.OutlierReportedLoggedEitherWay`).
- The endpoint does not check that `sensor_id` is a non-empty string or
  that the measurements are numbers. It only checks that the four keys
  are present.
- The training check compares only the second dimension of a rectangular
  corpus with 9. An empty or ragged corpus fails while loading instead
  (`Corpus.CheckCorpus`).

## Model

| member | source | states |
|---|---|---|
| Window.Push | backend/app.py:199-205 | appending to a history holding n readings leaves min(n+1, 3) of them, the new reading last, and the older ones are the previous history with at most its oldest reading evicted |
| Window.HistoryIsNewestSuffix | backend/app.py:199-205 | the history built from a stream of readings is exactly the last min(n, 3) of the n readings, oldest first |
| Window.FullWindowHasModelWidth | backend/app.py:30-33 | a full history always yields a vector of the model's width 9, in either flattening |
| Window.Flatten | backend/generate_normal_data.py:78-80 | the oldest-first flattening has 3 values per reading, and reading slot i holds reading i's temperature, humidity and pressure |
| Window.FeatureVector | backend/app.py:225-232 | the endpoint's vector has 3 values per reading, and reading slot i holds the i-th newest reading's three measurements |
| Window.OldestFirstIsReadingwiseReverse | backend/generate_normal_data.py:76-80 | the corpus row of a window is the endpoint's vector of the reversed window, so for a window of n readings slot i of one holds slot n-1-i of the other |
| Window.OrdersAgreeIffPalindrome | backend/app.py:228-232 | the two flattenings of a window agree if and only if the window reads the same in both directions |
| Ledger.EncodeAll | backend/app.py:130-135 | each stored 5-tuple decodes back to the record appended at that position, in the argument order of `logAnomaly` |
| Ledger.Append | backend/app.py:122-155 | an append that is eventually mined with status 1 adds the record at the end and keeps everything before it, and one that never is leaves the ledger unchanged |
| Ledger.FormatAll | backend/app.py:286-295 | when every stored timestamp can be rendered, the read endpoint renders every stored tuple, in order, with each field in its place and the timestamp's rendered date |
| Ledger.GetAnomalies | backend/app.py:283-299 | the read endpoint succeeds exactly when the contract call does and every stored timestamp can be rendered as a date, with one view per stored tuple; a raised contract call is the fetch error, and any other failure is an unrenderable timestamp |
| Ledger.OneBadTimestampFailsRead | backend/app.py:288-299 | a single stored timestamp outside the renderable range makes the whole read answer the error, whatever the other records are |
| Ledger.QueryShowsLedger | backend/app.py:283-296 | when every stored timestamp can be rendered, reading the ledger back shows exactly its records in append order |
| Ingestion.Validate | backend/app.py:184-195 | a request is accepted exactly when it is a JSON object carrying all four fields; a falsy JSON body (`null`, `false`, `0`, `""`, `[]` or the empty object) gets "No JSON data received", any other incomplete object gets "Missing required data fields", and an accepted reading carries exactly the posted values |
| Ingestion.UpdateWindows | backend/app.py:199-205 | only the posting sensor's window changes; it is created empty if absent and then receives the reading as a bounded push |
| Ingestion.Assess | backend/app.py:207-279 | warm-up exactly while the window holds fewer than 3 readings; the dimension-mismatch branch is unreachable; otherwise the newest-first 9-vector is scored, an outlier (-1) yields exactly one record with the clock's timestamp, the sensor, the rounded temperature, the fixed label and the explanation, and a model failure yields a processing failure |
| Ingestion.Outcome.HttpStatus | backend/app.py:186-279 | the answer is 400 exactly for a rejected request (lines 186, 190), 500 exactly for the dimension mismatch and a processing failure (lines 239, 279), and 200 for warm-up, a normal reading and a logged anomaly (lines 216, 266, 275) |
| Ingestion.Receive | backend/app.py:183-279 | a rejected request changes nothing; an accepted one updates its sensor's window, and its answer, scored vector and attempted record are exactly what the model's verdict on the sensor's updated window decides; the ledger grows by exactly the attempted record when mined and stays the same otherwise |
| Ingestion.OutlierReportedLoggedEitherWay | backend/app.py:249-266 | an outlier is answered 200 "logged" whether or not the append is mined: flipping the transaction's fate changes neither the answer nor the attempted record, only whether the ledger grows by one |
| Ingestion.RejectedIsBadRequest | backend/app.py:185-190 | a request is answered 400 exactly when it fails the body or field guard |
| Ingestion.MinedAnomalyIsQueryable | backend/app.py:249-266 | after a logged and mined anomaly, with every stored timestamp renderable, the read endpoint shows one more record, carrying the posting sensor, the rounded temperature and the fixed label |
| Ingestion.WindowsIgnoreEnv | backend/app.py:198-205 | after any sequence of requests the windows depend only on the accepted readings, not on the model, the clock or the ledger |
| Ingestion.WindowIsHistory | backend/app.py:198-205 | whatever other sensors post in between and however many requests are rejected, a new sensor's window after k requests is the buffer built from its own accepted readings among them |
| Ingestion.WindowTracksPosts | backend/app.py:199-205 | with interleaved sensors and rejected requests, a new sensor's window after k requests is the newest min(m, 3) of its own m accepted readings |
| Ingestion.WarmUpThenScored | backend/app.py:198-234 | with interleaved sensors and rejected requests, a new sensor's first two accepted readings only build history, and each later one is scored on the vector of that reading and the sensor's two accepted readings before it, newest first |
| Corpus.Observe | backend/generate_normal_data.py:67-82 | a reading enters only its own sensor's buffer, and a row is emitted exactly when that buffer is full, oldest reading first, 9 wide |
| Corpus.RowIsReverseOfScoredVector | backend/generate_normal_data.py:76-82 | every emitted row is the reading-wise reverse of the vector the endpoint scores for the same window, and equals it only on windows that read the same both ways |
| Corpus.RowDiffersFromScoredVector | backend/generate_normal_data.py:77-80 | for buffered temperatures 24, 25 and then 26, the row starts with 24 where the endpoint's vector starts with 26 |
| Corpus.ObserveIntended | backend/generate_normal_data.py:76-82 | the builder with rows laid out newest first: same buffers and same emission, and reading slot i holds the i-th newest reading |
| Corpus.IntendedRowIsScoredVector | backend/generate_normal_data.py:76-82 | the newest-first row is exactly the vector the endpoint scores for the same window |
| Corpus.BufferAfterRound | backend/generate_normal_data.py:58-72 | a sensor's buffer after round t holds its readings of rounds t-2, t-1 and t once t >= 2 |
| Corpus.CollectRound | backend/generate_normal_data.py:67-88 | one pass over the sensors emits one row per sensor from round 2 on, each the expected one in the corrected layout, and stops as soon as the requested count is reached |
| Corpus.CollectFrom | backend/generate_normal_data.py:66-90 | the rounds from round t on, starting from the buffers and rows of the first t rounds, end with exactly n rows, row j being the expected row for sensor j mod k in round 2 + j div k |
| Corpus.Collect | backend/generate_normal_data.py:57-92 | exactly n rows are collected, each 9 wide, and row j is the vector the endpoint would score for the window of sensor j mod k in round 2 + j div k (the corrected layout of the first finding) |
| Corpus.CollectConfigured | backend/generate_normal_data.py:15-92 | with the configured count of 2000 and a non-empty set of sensors, the builder yields exactly 2000 rows and the corpus passes the training check |
| Corpus.CheckCorpus | backend/app.py:91-109 | training proceeds exactly on a non-empty corpus whose rows all have width 9; an empty or ragged corpus fails to load and a rectangular one of another width is refused, carrying the width of its rows |
| Corpus.CollectedCorpusPassesCheck | backend/app.py:95-102 | every non-empty corpus of rows in the corrected newest-first layout passes the training width check |
| Corpus.WrittenCorpusPassesCheck | backend/generate_normal_data.py:76-82 | every non-empty corpus as the builder writes it, each row the oldest-first flattening of a sensor's three buffered readings, passes the training width check at app.py:95-102 |
| Simulator.InjectAnomaly | backend/data_simulator.py:53-78 | pressure is never touched; an unknown type leaves the reading as "Normal operation"; point adds 50 to 100 to the temperature only; contextual sets temperature in 28..32 and humidity in 85..95; change points shift temperature by 10..15 and humidity by 8..12 up or down |
| Simulator.ContextualIgnoresBase | backend/data_simulator.py:60-65 | a contextual anomaly's reading does not depend on the base temperature or humidity |
| Simulator.ChangePointsMirror | backend/data_simulator.py:66-75 | with the same draws, the low change point is the mirror image of the high one about the base reading |
| Simulator.Advance | backend/data_simulator.py:102-112 | a running countdown ticks down by one and keeps the type; with no countdown, a draw below 0.05 starts the chosen type with the drawn countdown of 3 to 10, and any other draw clears the type |
| Simulator.IntervalAsWritten | backend/data_simulator.py:102-122 | one interval as written: the state advances by the countdown update of lines 102-112; the reading is left as normal operation when no type is active after the update, is `inject_anomaly` of the active type with the interval's draws otherwise, and pressure always passes through |
| Simulator.SimulateAsWritten | backend/data_simulator.py:96-122 | the readings one sensor sends over a run of intervals as written: one per interval, each keeping its base pressure |
| Simulator.SimulateAsWrittenFollowsRun | backend/data_simulator.py:96-122 | as written, each reading of a run is distorted by exactly the type the countdown has active in that interval, and is normal operation when none is |
| Simulator.AnomalyDistortsCountdownPlusOne | backend/data_simulator.py:102-122 | as written, an anomaly started with countdown L distorts the L + 1 consecutive readings from the one it starts in, all with its type, and the next reading is normal operation |
| Simulator.ShortestAnomalyDistortsFourReadings | backend/data_simulator.py:109-122 | with randint(3, 10) = 3 and no new start, the code as written distorts reading 3 (a point spike to 90.0 from 20.0), which under the corrected countdown is normal operation |
| Simulator.Interval | backend/data_simulator.py:102-122 | one interval under the corrected countdown: the reading is left as normal operation when no type is active after the update, is `inject_anomaly` of the active type with the interval's draws otherwise, and pressure always passes through |
| Simulator.Simulate | backend/data_simulator.py:96-122 | the readings one sensor sends over a run of intervals under the corrected countdown: one per interval, each keeping its base pressure |
| Simulator.SimulateFollowsRun | backend/data_simulator.py:96-122 | under the corrected countdown, each reading of a run is distorted by exactly the type active in that interval, and is normal operation when none is |
| Simulator.AnomalyDistortsItsLength | backend/data_simulator.py:102-122 | under the corrected countdown, an anomaly drawn with length L distorts the L consecutive readings from the one it starts in, all with its type, and the next reading is normal operation |
| Simulator.CountdownKeepsType | backend/data_simulator.py:102-103 | while a countdown c runs, the next c intervals keep the type and count down to zero |
| Simulator.ActiveUntilExpiry | backend/data_simulator.py:102-112 | an active state with countdown c stays active for exactly c more intervals when the draw at expiry does not start another anomaly |
| Simulator.AnomalyLastsCountdownPlusOne | backend/data_simulator.py:102-112 | as written, an anomaly started with countdown L is active on exactly L + 1 consecutive intervals, between 4 and 11 |
| Simulator.LongestAnomalyOverruns | backend/data_simulator.py:109 | the draw randint(3, 10) = 10 keeps an anomaly active for 11 intervals |
| Simulator.AdvanceIntended | backend/data_simulator.py:102-112 | the update as its comment describes it: a running countdown ticks down and keeps the type; a new anomaly's remaining countdown is its drawn length minus the starting interval; any other draw clears the type |
| Simulator.IntendedAnomalyLastsItsLength | backend/data_simulator.py:109 | under the intended update an anomaly drawn with length L is active on exactly L intervals, between 3 and 10 |

## Left out

- HTTP and JSON decoding: a truthy body that is JSON but not an object
  is not modelled. Neither are Flask's own errors raised by
  `request.json` at app.py:184 before line 185 is reached. An absent
  body without a JSON content type is answered 415 (400 in older Flask
  versions). A JSON content type with an empty or undecodable body gets
  Flask's 400 "Failed to decode JSON object". Only a body that decodes
  to a falsy JSON value reaches the guard at line 185. The code does no
  type checks, and the model's types cannot express ill-typed fields:
  - Measurements are reals. A null, string or object-valued measurement
    passes the guard at app.py:189 and is pushed at line 205. While the
    window warms up it is answered 200 "Building history". An object
    arrives as a dictionary, which numpy does not treat as a sequence,
    so `np.array` at line 234 builds a 9-wide object row. Once the
    window is full, `predict` fails inside the handler and the endpoint
    answers a handled 500 "Processing failed" for as long as that
    reading stays in the window. In the model this is a model failure
    (`ModelFailed`).
  - A list-valued measurement makes the row ragged. With current numpy,
    `np.array` at app.py:234 raises outside the handler, so the answer
    is an unhandled 500. This path is not modelled.
  - Sensor ids are strings. A list- or object-valued `sensor_id` raises
    an unhashable-key error at app.py:199, outside any handler. A
    numeric or null `sensor_id` works as a dictionary key in the code.
    Neither is modelled.
- The outlier model (Isolation Forest training, `predict` and
  `decision_function`) is a parameter of the step. The endpoint
  handles only its answer: an outlier label, any other label, or a
  raised exception.
- Python's `round`, the f-string explanation and `datetime.fromtimestamp`
  are parameters, because their text and floating-point rounding are not
  part of the logic. The rendering is partial: it fails on a timestamp
  outside the platform's range, and the read endpoint then answers 500.
- The web3 transaction (nonce, gas, receipt wait, 120-second timeout) is
  one boolean, `mined`: is the append eventually mined with status 1.
  When the receipt wait at app.py:145 times out, the transaction has
  already been sent and may still be mined later. `mined` then describes
  that later fate, which the step's answer does not depend on. Any other
  result leaves the ledger unchanged.
- The smart contract's own code is not part of this model. The ledger
  is an append-only sequence of records.
- Ingestion.Receive: the module-level dictionary of windows is shared
  state in the code. Here it is threaded through the step, and
  concurrent requests are not modelled.
- Corpus.CollectRound: emits rows in the corrected newest-first layout, like `Corpus.Collect`.
- Corpus.CollectFrom: emits rows in the corrected newest-first layout, like `Corpus.Collect`.
- Corpus.CollectConfigured: emits rows in the corrected newest-first layout, like `Corpus.Collect`.
- Corpus.Collect: rows use the corrected newest-first layout (see
  Findings). `Corpus.Observe` keeps the as-written one, and
  `Corpus.WrittenCorpusPassesCheck` covers the corpus as written. The
  reading generator (sine cycles with Gaussian noise) and the two-second
  clock advance are the parameter `gen(round, sensor)`. Progress
  printing and the JSON file output are not modelled. `Collect` also
  requires a non-empty sensor list whenever rows are requested. With an
  empty list and a positive count the source's `while` at
  generate_normal_data.py:66 never ends, because no row is ever emitted.
  The model does not describe that non-terminating run.
- Corpus.CollectedCorpusPassesCheck: covers corpora in the corrected
  newest-first layout. `Corpus.WrittenCorpusPassesCheck` covers the
  oldest-first corpus the builder writes.
- Simulator.Interval: uses the corrected countdown (see Findings), so
  an anomaly drawn with length L distorts L readings, not the L + 1 of
  the code. `Simulator.IntervalAsWritten` and its run model the code as
  written.
- Simulator.Simulate: a run of `Simulator.Interval`, so it uses the
  corrected countdown. `Simulator.SimulateAsWritten` is the run as written.
- Simulator.SimulateFollowsRun: relates readings to the corrected
  countdown. `Simulator.SimulateAsWrittenFollowsRun` does so as written.
- Simulator.AnomalyDistortsItsLength: states the corrected L-reading
  behaviour. `Simulator.AnomalyDistortsCountdownPlusOne` states the
  L + 1 readings of the code as written.
- Simulator: readings are generated per sensor with that sensor's own
  draws. The shared random stream across sensors, the trigonometric
  reading generator, payload rounding, HTTP posting and sleeps are not
  modelled.
- Simulator.Uniform: `random.uniform(a, b)` is `a + (b - a) * u` for a
  unit draw `u` in [0, 1). The end point `b` is then excluded, although
  floating-point rounding can make Python return it.
- Startup (loading the ABI, the contract and a saved model) is not
  modelled. Its failures end the process.

## Findings

| source | as written | input that shows it | evidently intended | confidence | as-written member | corrected member |
|---|---|---|---|---|---|---|
| backend/generate_normal_data.py:77-80 | training rows flatten the buffer oldest reading first, while the endpoint scores vectors newest reading first | one sensor with temperatures 24, 25, 26: the row starts with 24 and the scored vector with 26 | rows laid out current reading first, as the comment on line 77 and the endpoint both say | not executed | Corpus.RowDiffersFromScoredVector | Corpus.IntendedRowIsScoredVector |
| backend/data_simulator.py:109 | the countdown is set to the drawn length on the starting interval and only ticks down afterwards, so an anomaly is active on L + 1 intervals and distorts L + 1 readings (`Simulator.AnomalyDistortsCountdownPlusOne`) | randint(3, 10) = 10 followed by no new start: 11 anomalous intervals; randint(3, 10) = 3: reading 3 is still distorted (`Simulator.ShortestAnomalyDistortsFourReadings`) | the anomaly lasts 3 to 10 intervals, as the comment says | not executed | Simulator.LongestAnomalyOverruns | Simulator.IntendedAnomalyLastsItsLength |

=== FILE: corpus.dfy ===
/**
  The offline builder of the normal training corpus: every simulated round
  each sensor's reading is pushed into that sensor's three-slot buffer and,
  once the buffer is full, the buffer is flattened into one training row,
  until exactly the requested number of rows has been collected. Also the
  width check the backend applies to the corpus before training.
 */
module Corpus {
  import opened Optional
  import opened Window

  /** How many rows the builder collects. */
  const NumNormalReadingsToCollect: nat := 2000

  /**
    One reading of the collection loop: it enters its own sensor's buffer
    only, and a row is emitted exactly when that buffer is full. The row is
    the buffer flattened as the loop iterates it, oldest reading first.
   */
  function Observe(buffers: map<string, seq<Reading>>, id: string, x: Reading): (res: (map<string, seq<Reading>>, Option<seq<real>>))
    requires id in buffers
    ensures res.0.Keys == buffers.Keys
    ensures forall k | k in buffers && k != id :: res.0[k] == buffers[k]
    ensures var w, w' := buffers[id], res.0[id];
      && |w'| == Min(|w| + 1, MaxHistoryLength)
      && w'[|w'| - 1] == x
      && w'[..|w'| - 1] == w[|w| + 1 - |w'|..]
    ensures res.1.Some? <==> |res.0[id]| == LagFeaturesCount
    ensures res.1.Some? ==>
      && |res.1.value| == TotalFeaturesForModel
      && forall i | 0 <= i < LagFeaturesCount :: Slot(res.1.value, i) == Fields(res.0[id][i])
  {
    var w' := Push(buffers[id], x);
    (buffers[id := w'], if |w'| == LagFeaturesCount then Some(Flatten(w')) else None)
  }

  /**
    The row the builder emits for a full buffer is the reading-wise reverse
    of the vector the scoring endpoint builds from the same window, so the
    two agree only on windows that read the same both ways.
   */
  lemma RowIsReverseOfScoredVector(buffers: map<string, seq<Reading>>, id: string, x: Reading)
    requires id in buffers
    requires Observe(buffers, id, x).1.Some?
    ensures var w := Observe(buffers, id, x).0[id];
      var row := Observe(buffers, id, x).1.value;
      && row == FeatureVector(Reverse(w))
      && (forall i | 0 <= i < LagFeaturesCount :: Slot(row, i) == Slot(FeatureVector(w), LagFeaturesCount - 1 - i))
      && (row == FeatureVector(w) <==> Reverse(w) == w)
  {
    var w := Observe(buffers, id, x).0[id];
    OldestFirstIsReadingwiseReverse(w);
    OrdersAgreeIffPalindrome(w);
  }

  /** Three distinct temperatures: the emitted row and the scored vector differ. */
  lemma RowDiffersFromScoredVector()
    ensures var buffers := map["temp_sensor_01" := [Reading(24.0, 60.0, 1010.0), Reading(25.0, 60.0, 1010.0)]];
      var res := Observe(buffers, "temp_sensor_01", Reading(26.0, 60.0, 1010.0));
      && res.1.Some?
      && res.1.value[0] == 24.0
      && FeatureVector(res.0["temp_sensor_01"])[0] == 26.0
      && res.1.value != FeatureVector(res.0["temp_sensor_01"])
  {
    var buffers := map["temp_sensor_01" := [Reading(24.0, 60.0, 1010.0), Reading(25.0, 60.0, 1010.0)]];
    var res := Observe(buffers, "temp_sensor_01", Reading(26.0, 60.0, 1010.0));
    var w := res.0["temp_sensor_01"];
    assert w == [Reading(24.0, 60.0, 1010.0), Reading(25.0, 60.0, 1010.0), Reading(26.0, 60.0, 1010.0)];
    assert Slot(res.1.value, 0) == Fields(w[0]);
    assert Slot(FeatureVector(w), 0) == Fields(w[2]);
    assert res.1.value[0] == Slot(res.1.value, 0)[0];
    assert FeatureVector(w)[0] == Slot(FeatureVector(w), 0)[0];
  }

  /**
    The builder as its comment describes it: rows laid out current reading
    first, exactly as the scoring endpoint lays out the vector it scores.
   */
  function ObserveIntended(buffers: map<string, seq<Reading>>, id: string, x: Reading): (res: (map<string, seq<Reading>>, Option<seq<real>>))
    requires id in buffers
    ensures res.0 == Observe(buffers, id, x).0
    ensures res.1.Some? <==> Observe(buffers, id, x).1.Some?
    ensures res.1.Some? ==>
      && |res.1.value| == TotalFeaturesForModel
      && forall i | 0 <= i < LagFeaturesCount :: Slot(res.1.value, i) == Fields(res.0[id][LagFeaturesCount - 1 - i])
  {
    var w' := Push(buffers[id], x);
    (buffers[id := w'], if |w'| == LagFeaturesCount then Some(Flatten(Reverse(w'))) else None)
  }

  /** The intended rows are exactly the vectors the endpoint scores for the same window. */
  lemma IntendedRowIsScoredVector(buffers: map<string, seq<Reading>>, id: string, x: Reading)
    requires id in buffers
    requires ObserveIntended(buffers, id, x).1.Some?
    ensures ObserveIntended(buffers, id, x).1.value == FeatureVector(ObserveIntended(buffers, id, x).0[id])
  {
    var res := ObserveIntended(buffers, id, x);
    var w := res.0[id];
    var v := FeatureVector(w);
    assert |v| == |res.1.value|;
    forall k | 0 <= k < |v|
      ensures res.1.value[k] == v[k]
    {
      var i := k / FeaturesPerReading;
      assert Slot(res.1.value, i) == Slot(v, i);
      assert res.1.value[k] == Slot(res.1.value, i)[k % FeaturesPerReading];
      assert v[k] == Slot(v, i)[k % FeaturesPerReading];
    }
  }

  /** The readings of sensor `i` in rounds `0..t-1`. */
  function Stream(gen: (nat, nat) -> Reading, i: nat, t: nat): (xs: seq<Reading>)
    ensures |xs| == t
    ensures forall r | 0 <= r < t :: xs[r] == gen(r, i)
  {
    seq(t, r requires 0 <= r < t => gen(r, i))
  }

  /** Sensor `i`'s buffer once round `t` (t >= 2) has pushed its reading: rounds t-2, t-1 and t. */
  function FullWindow(gen: (nat, nat) -> Reading, t: nat, i: nat): seq<Reading>
    requires t >= 2
  {
    [gen(t - 2, i), gen(t - 1, i), gen(t, i)]
  }

  /** Rows emitted before round `t` starts, with `k` sensors. */
  function Emitted(k: nat, t: nat): nat
  {
    if t < 2 then 0 else k * (t - 2)
  }

  /** A stream one round longer is the shorter stream plus that round's reading. */
  lemma StreamGrows(gen: (nat, nat) -> Reading, i: nat, t: nat)
    ensures Stream(gen, i, t + 1) == Stream(gen, i, t) + [gen(t, i)]
  {
  }

  /** Sensor `i`'s buffer after round `t` is the newest part of its stream, full from round 2 on. */
  lemma BufferAfterRound(gen: (nat, nat) -> Reading, i: nat, t: nat)
    ensures History(Stream(gen, i, t + 1)) == Push(History(Stream(gen, i, t)), gen(t, i))
    ensures |History(Stream(gen, i, t + 1))| == Min(t + 1, MaxHistoryLength)
    ensures t >= 2 ==> History(Stream(gen, i, t + 1)) == FullWindow(gen, t, i)
  {
    var xs := Stream(gen, i, t + 1);
    StreamGrows(gen, i, t);
    assert xs[..t] == Stream(gen, i, t);
    HistoryIsNewestSuffix(xs);
    if t >= 2 {
      var tail := xs[t + 1 - MaxHistoryLength..];
      assert |tail| == 3 && tail[0] == gen(t - 2, i) && tail[1] == gen(t - 1, i) && tail[2] == gen(t, i);
    }
  }

  /** A positive multiple of `k` is at least `k`. */
  lemma {:induction false} MulAtLeast(k: nat, d: nat)
    requires d >= 1
    ensures k * d >= k
  {
    if d > 1 {
      MulAtLeast(k, d - 1);
      assert k * d == k * (d - 1) + k;
    }
  }

  /** Quotient and remainder of `k * q + i` by `k`, for `0 <= i < k`. */
  lemma DivModOfSlot(k: nat, q: nat, i: nat)
    requires i < k
    ensures (k * q + i) / k == q
    ensures (k * q + i) % k == i
  {
    var j := k * q + i;
    var q', i' := j / k, j % k;
    assert j == k * q' + i' && 0 <= i' < k;
    if q' < q {
      MulAtLeast(k, q - q');
      assert false;
    } else if q' > q {
      MulAtLeast(k, q' - q);
      assert false;
    }
  }

  /**
    The `j`-th row of the corrected builder, with `k` sensors: the vector the
    endpoint would score for sensor `j % k`'s window in round `2 + j / k`.
   */
  function ExpectedRow(gen: (nat, nat) -> Reading, k: nat, j: nat): seq<real>
    requires k > 0
  {
    FeatureVector(FullWindow(gen, 2 + j / k, j % k))
  }

  ghost predicate RowsAsExpected(rows: seq<seq<real>>, gen: (nat, nat) -> Reading, k: nat)
    requires k > 0
  {
    forall j | 0 <= j < |rows| :: rows[j] == ExpectedRow(gen, k, j)
  }

  /** Sensors `0..done-1` have had their reading of round `t` pushed, the rest have not. */
  ghost predicate BuffersAt(buffers: map<string, seq<Reading>>, sensors: seq<string>, gen: (nat, nat) -> Reading, t: nat, done: nat)
  {
    forall i | 0 <= i < |sensors| ::
      sensors[i] in buffers && buffers[sensors[i]] == History(Stream(gen, i, if i < done then t + 1 else t))
  }

  /** Observing sensor `i`'s reading of round `t` advances exactly that sensor's buffer. */
  lemma ObserveAdvances(buffers: map<string, seq<Reading>>, sensors: seq<string>, gen: (nat, nat) -> Reading, t: nat, i: nat)
    requires i < |sensors|
    requires forall a, b | 0 <= a < b < |sensors| :: sensors[a] != sensors[b]
    requires BuffersAt(buffers, sensors, gen, t, i)
    ensures sensors[i] in buffers
    ensures BuffersAt(Observe(buffers, sensors[i], gen(t, i)).0, sensors, gen, t, i + 1)
  {
    BufferAfterRound(gen, i, t);
    var buffers' := Observe(buffers, sensors[i], gen(t, i)).0;
    assert buffers'[sensors[i]] == History(Stream(gen, i, t + 1));
    forall i' | 0 <= i' < |sensors|
      ensures sensors[i'] in buffers'
      ensures buffers'[sensors[i']] == History(Stream(gen, i', if i' < i + 1 then t + 1 else t))
    {
      if i' != i {
        assert sensors[i'] != sensors[i];
        assert buffers'[sensors[i']] == buffers[sensors[i']];
      }
    }
  }

  /** Sensor `i`'s reading of round `t` emits a row from round 2 on, and it is the next expected row. */
  lemma ObserveEmits(buffers: map<string, seq<Reading>>, sensors: seq<string>, gen: (nat, nat) -> Reading, t: nat, i: nat)
    requires i < |sensors|
    requires sensors[i] in buffers && buffers[sensors[i]] == History(Stream(gen, i, t))
    ensures ObserveIntended(buffers, sensors[i], gen(t, i)).1.Some? <==> t >= 2
    ensures t >= 2 ==> ObserveIntended(buffers, sensors[i], gen(t, i)).1.value == ExpectedRow(gen, |sensors|, Emitted(|sensors|, t) + i)
  {
    BufferAfterRound(gen, i, t);
    var w := Push(buffers[sensors[i]], gen(t, i));
    assert ObserveIntended(buffers, sensors[i], gen(t, i)).1 == if |w| == LagFeaturesCount then Some(FeatureVector(w)) else None;
    if t >= 2 {
      ExpectedRowOfRound(gen, |sensors|, t, i);
    }
  }

  /** The row numbered `Emitted(k, t) + i` is sensor `i`'s full window in round `t`. */
  lemma ExpectedRowOfRound(gen: (nat, nat) -> Reading, k: nat, t: nat, i: nat)
    requires i < k && t >= 2
    ensures ExpectedRow(gen, k, Emitted(k, t) + i) == FeatureVector(FullWindow(gen, t, i))
  {
    DivModOfSlot(k, t - 2, i);
  }

  /** Appending the expected next row keeps the rows as expected. */
  lemma AppendExpectedRow(rows: seq<seq<real>>, gen: (nat, nat) -> Reading, k: nat, row: seq<real>)
    requires k > 0
    requires RowsAsExpected(rows, gen, k)
    requires row == ExpectedRow(gen, k, |rows|)
    ensures RowsAsExpected(rows + [row], gen, k)
  {
    var rows' := rows + [row];
    forall j | 0 <= j < |rows'|
      ensures rows'[j] == ExpectedRow(gen, k, j)
    {
      if j < |rows| {
        assert rows'[j] == rows[j];
      }
    }
  }

  /** Every expected row has the model's input width. */
  lemma ExpectedRowsHaveModelWidth(rows: seq<seq<real>>, gen: (nat, nat) -> Reading, k: nat)
    requires k > 0
    requires RowsAsExpected(rows, gen, k)
    ensures forall j | 0 <= j < |rows| :: |rows[j]| == TotalFeaturesForModel
  {
    forall j | 0 <= j < |rows|
      ensures |rows[j]| == TotalFeaturesForModel
    {
      assert |FullWindow(gen, 2 + j / k, j % k)| == LagFeaturesCount;
    }
  }

  /** Before the first round every configured sensor has an empty buffer. */
  lemma EmptyBuffersAtStart(buffers: map<string, seq<Reading>>, sensors: seq<string>, gen: (nat, nat) -> Reading)
    requires buffers == map id | id in sensors :: []
    ensures BuffersAt(buffers, sensors, gen, 0, 0)
  {
    forall i | 0 <= i < |sensors|
      ensures sensors[i] in buffers && buffers[sensors[i]] == History(Stream(gen, i, 0))
    {
      assert sensors[i] in sensors;
    }
  }

  /**
    One pass of the inner loop over the sensors in round `t`: stops as soon
    as the `n`-th row is collected.
   */
  method CollectRound(sensors: seq<string>, n: nat, gen: (nat, nat) -> Reading, t: nat,
                      buffers: map<string, seq<Reading>>, rows: seq<seq<real>>)
    returns (buffers': map<string, seq<Reading>>, rows': seq<seq<real>>)
    requires |sensors| > 0
    requires forall a, b | 0 <= a < b < |sensors| :: sensors[a] != sensors[b]
    requires |rows| < n && |rows| == Emitted(|sensors|, t)
    requires BuffersAt(buffers, sensors, gen, t, 0)
    requires RowsAsExpected(rows, gen, |sensors|)
    ensures |rows| <= |rows'| <= n
    ensures RowsAsExpected(rows', gen, |sensors|)
    ensures |rows'| < n ==> |rows'| == Emitted(|sensors|, t + 1) && BuffersAt(buffers', sensors, gen, t + 1, 0)
    ensures t >= 2 ==> |rows'| > |rows|
  {
    var k := |sensors|;
    buffers', rows' := buffers, rows;
    var i := 0;
    while i < k
      invariant 0 <= i <= k
      invariant |rows| <= |rows'| < n
      invariant |rows'| == Emitted(k, t) + (if t >= 2 then i else 0)
      invariant BuffersAt(buffers', sensors, gen, t, i)
      invariant RowsAsExpected(rows', gen, k)
    {
      ObserveAdvances(buffers', sensors, gen, t, i);
      ObserveEmits(buffers', sensors, gen, t, i);
      var res := ObserveIntended(buffers', sensors[i], gen(t, i));
      buffers' := res.0;
      if res.1.Some? {
        AppendExpectedRow(rows', gen, k, res.1.value);
        rows' := rows' + [res.1.value];
        if |rows'| >= n {
          return;
        }
      }
      i := i + 1;
    }
    if t >= 2 {
      assert k * (t + 1 - 2) == k * (t - 2) + k;
    }
    assert BuffersAt(buffers', sensors, gen, t + 1, 0);
  }

  /** The rounds from `t` on, until the `n`-th row is collected. */
  method CollectFrom(sensors: seq<string>, n: nat, gen: (nat, nat) -> Reading, t: nat,
                     buffers: map<string, seq<Reading>>, rows: seq<seq<real>>)
    returns (rows': seq<seq<real>>)
    requires |sensors| > 0
    requires forall a, b | 0 <= a < b < |sensors| :: sensors[a] != sensors[b]
    requires |rows| < n && |rows| == Emitted(|sensors|, t)
    requires BuffersAt(buffers, sensors, gen, t, 0)
    requires RowsAsExpected(rows, gen, |sensors|)
    ensures |rows'| == n
    ensures RowsAsExpected(rows', gen, |sensors|)
    decreases n - |rows|, 2 - Min(t, 2)
  {
    var buffers1, rows1 := CollectRound(sensors, n, gen, t, buffers, rows);
    if |rows1| == n {
      return rows1;
    }
    rows' := CollectFrom(sensors, n, gen, t + 1, buffers1, rows1);
  }

  /**
    The collection loop: rounds of readings over the configured sensors, one
    reading per sensor per round drawn from `gen(round, sensor index)`, until
    exactly `n` rows have been collected. Row `j` comes from sensor
    `j % |sensors|` in round `2 + j / |sensors|`. Rows use the corrected
    layout of `ObserveIntended`, so each is the vector the endpoint would
    score for that window.
   */
  method Collect(sensors: seq<string>, n: nat, gen: (nat, nat) -> Reading) returns (rows: seq<seq<real>>)
    requires n == 0 || |sensors| > 0
    requires forall a, b | 0 <= a < b < |sensors| :: sensors[a] != sensors[b]
    ensures |rows| == n
    ensures forall j | 0 <= j < n :: |rows[j]| == TotalFeaturesForModel
    ensures forall j | 0 <= j < n :: rows[j] == ExpectedRow(gen, |sensors|, j)
  {
    if n == 0 {
      return [];
    }
    var buffers: map<string, seq<Reading>> := map id | id in sensors :: [];
    EmptyBuffersAtStart(buffers, sensors, gen);
    rows := CollectFrom(sensors, n, gen, 0, buffers, []);
    ExpectedRowsHaveModelWidth(rows, gen, |sensors|);
  }

  /**
    The builder as configured: a non-empty set of sensors yields exactly
    `NumNormalReadingsToCollect` rows, and the corpus passes the backend's
    training check.
   */
  method CollectConfigured(sensors: seq<string>, gen: (nat, nat) -> Reading) returns (rows: seq<seq<real>>)
    requires |sensors| > 0
    requires forall a, b | 0 <= a < b < |sensors| :: sensors[a] != sensors[b]
    ensures |rows| == NumNormalReadingsToCollect
    ensures CheckCorpus(rows).Ok?
  {
    rows := Collect(sensors, NumNormalReadingsToCollect, gen);
  }

  /** Why the backend refuses to train. */
  datatype TrainingError = CorpusUnreadable | WidthMismatch(width: nat)

  /**
    The shape check before training: an empty or ragged corpus has no
    second dimension and fails while loading; a rectangular one is refused
    unless its width is the model's input width.
   */
  function CheckCorpus(rows: seq<seq<real>>): (r: Result<seq<seq<real>>, TrainingError>)
    ensures r.Ok? <==> |rows| > 0 && forall j | 0 <= j < |rows| :: |rows[j]| == TotalFeaturesForModel
    ensures r.Ok? ==> r.value == rows
    ensures r == Err(CorpusUnreadable) <==> |rows| == 0 || exists j | 0 <= j < |rows| :: |rows[j]| != |rows[0]|
    ensures |rows| > 0 && (forall j | 0 <= j < |rows| :: |rows[j]| == |rows[0]|) && |rows[0]| != TotalFeaturesForModel ==>
      r == Err(WidthMismatch(|rows[0]|))
  {
    if |rows| == 0 || exists j | 0 <= j < |rows| :: |rows[j]| != |rows[0]| then Err(CorpusUnreadable)
    else if |rows[0]| != TotalFeaturesForModel then Err(WidthMismatch(|rows[0]|))
    else Ok(rows)
  }

  /** Any non-empty corpus the builder can produce passes the backend's width check. */
  lemma CollectedCorpusPassesCheck(rows: seq<seq<real>>, gen: (nat, nat) -> Reading, k: nat)
    requires |rows| > 0 && k > 0
    requires forall j | 0 <= j < |rows| :: rows[j] == ExpectedRow(gen, k, j)
    ensures CheckCorpus(rows).Ok?
  {
    ExpectedRowsHaveModelWidth(rows, gen, k);
  }

  /**
    The corpus as the builder writes it, oldest reading first in each row,
    passes the backend's width check as well: the layout differs, the width
    does not.
   */
  lemma WrittenCorpusPassesCheck(rows: seq<seq<real>>, gen: (nat, nat) -> Reading, k: nat)
    requires |rows| > 0 && k > 0
    requires forall j | 0 <= j < |rows| :: rows[j] == Flatten(FullWindow(gen, 2 + j / k, j % k))
    ensures CheckCorpus(rows).Ok?
  {
    forall j | 0 <= j < |rows|
      ensures |rows[j]| == TotalFeaturesForModel
    {
      FullWindowHasModelWidth(FullWindow(gen, 2 + j / k, j % k));
    }
  }
}

=== FILE: ingestion.dfy ===
/**
  The `/sensor_data` endpoint of the backend as a pure step function: it
  validates a posted body, pushes the reading into that sensor's window,
  scores the newest-first lagged vector once the window is full and, on an
  outlier verdict, makes one append attempt on the anomaly ledger.
 */
module Ingestion {
  import opened Optional
  import opened Window
  import opened Ledger

  /** The fixed `anomaly_type` of every record the endpoint logs. */
  const AnomalyLabel: string := "Environmental Anomaly (Time Series)"
  /** The prediction label the outlier model gives an outlier. */
  const OutlierLabel: int := -1

  /**
    A decoded JSON object: the four fields the endpoint reads, each possibly
    absent, and how many further fields it carries.
   */
  datatype Body = Body(
    sensorId: Option<string>,
    temperature: Option<real>,
    humidity: Option<real>,
    pressure: Option<real>,
    otherFields: nat)

  /**
    A request whose JSON body is a falsy value other than an object
    (`null`, `false`, `0`, `""` or `[]`), or a JSON object.
   */
  datatype Request = NoJson | Json(body: Body)

  /** A JSON object with no fields at all, which Python treats as false. */
  predicate IsEmpty(b: Body)
  {
    b.sensorId.None? && b.temperature.None? && b.humidity.None? && b.pressure.None? && b.otherFields == 0
  }

  predicate HasRequiredFields(b: Body)
  {
    b.sensorId.Some? && b.temperature.Some? && b.humidity.Some? && b.pressure.Some?
  }

  /** Why a request is answered with 400. */
  datatype Rejection = NoJsonData | MissingFields

  /** An accepted reading together with the sensor that posted it. */
  datatype Posted = Posted(sensorId: string, reading: Reading)

  /** The two guards at the top of the endpoint and the extraction of the reading. */
  function Validate(req: Request): (r: Result<Posted, Rejection>)
    ensures r.Ok? <==> req.Json? && HasRequiredFields(req.body)
    ensures r == Err(NoJsonData) <==> req.NoJson? || IsEmpty(req.body)
    ensures r.Ok? ==>
      && req.body.sensorId == Some(r.value.sensorId)
      && req.body.temperature == Some(r.value.reading.temperature)
      && req.body.humidity == Some(r.value.reading.humidity)
      && req.body.pressure == Some(r.value.reading.pressure)
  {
    match req
    case NoJson => Err(NoJsonData)
    case Json(b) =>
      if IsEmpty(b) then Err(NoJsonData)
      else if !HasRequiredFields(b) then Err(MissingFields)
      else Ok(Posted(b.sensorId.value, Reading(b.temperature.value, b.humidity.value, b.pressure.value)))
  }

  /** A sensor's window, or the empty deque it gets on first sight. */
  function WindowOf(windows: map<string, seq<Reading>>, id: string): seq<Reading>
  {
    if id in windows then windows[id] else []
  }

  /**
    The history update: the posting sensor's window is created if absent and
    gets the reading pushed; every other window is left as it was.
   */
  function UpdateWindows(windows: map<string, seq<Reading>>, id: string, r: Reading): (windows': map<string, seq<Reading>>)
    ensures windows'.Keys == windows.Keys + {id}
    ensures forall k | k in windows && k != id :: windows'[k] == windows[k]
    ensures var w := WindowOf(windows, id); var w' := windows'[id];
      && |w'| <= MaxHistoryLength
      && |w'| == Min(|w| + 1, MaxHistoryLength)
      && w'[|w'| - 1] == r
      && w'[..|w'| - 1] == w[|w| + 1 - |w'|..]
  {
    var w' := Push(WindowOf(windows, id), r);
    windows[id := w']
  }

  /** What the opaque outlier model answers for one feature vector. */
  datatype Verdict = Scored(prediction: int, score: real) | ModelFailed

  /**
    Everything the step consults that is not its state: the clock, the
    trained model, Python's `int(round(.))`, the explanation formatting and
    whether the ledger transaction is mined with status 1.
   */
  datatype Env = Env(
    now: int,
    model: seq<real> -> Verdict,
    roundTemperature: real -> int,
    explain: (real, Reading) -> string,
    mined: bool)

  /** What the caller is told. */
  datatype Outcome =
    | Rejected(reason: Rejection)
    | BuildingHistory
    | DimensionMismatch
    | NoAnomaly(score: real)
    | AnomalyLogged(score: real)
    | ProcessingFailed
  {
    /** The HTTP status code of the response. */
    function HttpStatus(): (code: int)
      ensures code == 200 <==> BuildingHistory? || NoAnomaly? || AnomalyLogged?
      ensures code == 400 <==> Rejected?
      ensures code == 500 <==> DimensionMismatch? || ProcessingFailed?
    {
      match this
      case Rejected(_) => 400
      case DimensionMismatch => 500
      case ProcessingFailed => 500
      case _ => 200
    }
  }

  /** The part of a step after the window update. */
  datatype Assessment = Assessment(outcome: Outcome, scored: Option<seq<real>>, attempt: Option<AnomalyRecord>)

  /**
    Decides what happens to an accepted reading given the sensor's window
    after the push: warm up, or score the newest-first vector and, on an
    outlier, prepare the one record to append.
   */
  function Assess(p: Posted, w: seq<Reading>, env: Env): (a: Assessment)
    ensures a.outcome.BuildingHistory? <==> |w| < LagFeaturesCount
    ensures |w| <= MaxHistoryLength ==> !a.outcome.DimensionMismatch?
    ensures |w| <= MaxHistoryLength ==> (a.scored.Some? <==> |w| == LagFeaturesCount)
    ensures a.scored.Some? ==> a.scored.value == FeatureVector(w) && |a.scored.value| == TotalFeaturesForModel
    ensures a.attempt.Some? <==> a.outcome.AnomalyLogged?
    ensures a.outcome.AnomalyLogged? <==>
      a.scored.Some? && env.model(a.scored.value).Scored? && env.model(a.scored.value).prediction == OutlierLabel
    ensures a.outcome.NoAnomaly? <==>
      a.scored.Some? && env.model(a.scored.value).Scored? && env.model(a.scored.value).prediction != OutlierLabel
    ensures a.outcome.AnomalyLogged? || a.outcome.NoAnomaly? ==>
      a.scored.Some? && env.model(a.scored.value).Scored? && a.outcome.score == env.model(a.scored.value).score
    ensures a.outcome.ProcessingFailed? <==> a.scored.Some? && env.model(a.scored.value).ModelFailed?
    ensures a.attempt.Some? ==>
      && a.attempt.value.timestamp == env.now
      && a.attempt.value.sensorId == p.sensorId
      && a.attempt.value.dataValue == env.roundTemperature(p.reading.temperature)
      && a.attempt.value.anomalyType == AnomalyLabel
      && a.attempt.value.explanation == env.explain(a.outcome.score, p.reading)
  {
    if |w| < LagFeaturesCount then Assessment(BuildingHistory, None, None)
    else
      var v := FeatureVector(w);
      if |v| != TotalFeaturesForModel then Assessment(DimensionMismatch, None, None)
      else
        match env.model(v)
        case ModelFailed => Assessment(ProcessingFailed, Some(v), None)
        case Scored(prediction, score) =>
          if prediction == OutlierLabel then
            var record := AnomalyRecord(env.now, p.sensorId, env.roundTemperature(p.reading.temperature),
                                        AnomalyLabel, env.explain(score, p.reading));
            Assessment(AnomalyLogged(score), Some(v), Some(record))
          else
            Assessment(NoAnomaly(score), Some(v), None)
  }

  /** The endpoint's state: one window per sensor seen, and the ledger. */
  datatype State = State(windows: map<string, seq<Reading>>, ledger: seq<AnomalyRecord>)

  /**
    One step: the new state, the outcome, the vector handed to the model if
    any, and the record whose append was attempted if any.
   */
  datatype StepResult = StepResult(state: State, outcome: Outcome, scored: Option<seq<real>>, attempt: Option<AnomalyRecord>)

  /** `receive_sensor_data` as a transition of the endpoint's state. */
  function Receive(s: State, req: Request, env: Env): (r: StepResult)
    ensures r.outcome.Rejected? <==> Validate(req).Err?
    ensures r.outcome.Rejected? ==> r.state == s && r.scored.None? && r.attempt.None?
    ensures !r.outcome.DimensionMismatch?
    ensures Validate(req).Ok? ==>
      var p := Validate(req).value;
      && r.state.windows == UpdateWindows(s.windows, p.sensorId, p.reading)
      && (r.outcome.BuildingHistory? <==> |r.state.windows[p.sensorId]| < LagFeaturesCount)
      && (r.scored.Some? <==> |r.state.windows[p.sensorId]| == LagFeaturesCount)
      && (r.scored.Some? ==> r.scored.value == FeatureVector(r.state.windows[p.sensorId]))
    ensures r.state.ledger == s.ledger || (r.attempt.Some? && env.mined && r.state.ledger == s.ledger + [r.attempt.value])
    ensures r.attempt.Some? <==> r.outcome.AnomalyLogged?
    ensures r.attempt.Some? && env.mined ==> r.state.ledger == s.ledger + [r.attempt.value]
    ensures Validate(req).Ok? ==>
      var p := Validate(req).value;
      var a := Assess(p, r.state.windows[p.sensorId], env);
      r.outcome == a.outcome && r.scored == a.scored && r.attempt == a.attempt
  {
    match Validate(req)
    case Err(e) => StepResult(s, Rejected(e), None, None)
    case Ok(p) =>
      var windows := UpdateWindows(s.windows, p.sensorId, p.reading);
      var a := Assess(p, windows[p.sensorId], env);
      var ledger := if a.attempt.Some? then Append(s.ledger, a.attempt.value, env.mined) else s.ledger;
      StepResult(State(windows, ledger), a.outcome, a.scored, a.attempt)
  }

  /**
    An outlier is reported as logged whether or not the append was mined:
    flipping the transaction's fate changes neither the answer nor the
    attempted record, only whether the ledger grows by one.
   */
  lemma OutlierReportedLoggedEitherWay(s: State, req: Request, env: Env)
    requires Receive(s, req, env).attempt.Some?
    ensures var r := Receive(s, req, env);
      var r' := Receive(s, req, env.(mined := !env.mined));
      && r.outcome.AnomalyLogged? && r.outcome.HttpStatus() == 200
      && r'.outcome == r.outcome && r'.attempt == r.attempt
      && |r.state.ledger| == |s.ledger| + (if env.mined then 1 else 0)
      && |r'.state.ledger| == |s.ledger| + (if env.mined then 0 else 1)
  {
  }

  /** A request is answered with 400 exactly when it fails the guards. */
  lemma RejectedIsBadRequest(s: State, req: Request, env: Env)
    ensures Receive(s, req, env).outcome.HttpStatus() == 400 <==> Validate(req).Err?
  {
  }

  /** After a logged and mined anomaly, the query shows one new record with the posted values. */
  lemma MinedAnomalyIsQueryable(s: State, req: Request, env: Env, render: int -> Option<string>)
    requires Receive(s, req, env).outcome.AnomalyLogged?
    requires env.mined
    requires forall i | 0 <= i < |s.ledger| :: render(s.ledger[i].timestamp).Some?
    requires render(env.now).Some?
    ensures var r := Receive(s, req, env);
      var p := Validate(req).value;
      var vs := GetAnomalies(Some(EncodeAll(r.state.ledger)), render).value;
      && |vs| == |s.ledger| + 1
      && vs[|s.ledger|].sensorId == p.sensorId
      && vs[|s.ledger|].dataValue == env.roundTemperature(p.reading.temperature)
      && vs[|s.ledger|].anomalyType == AnomalyLabel
  {
    var r := Receive(s, req, env);
    assert forall i | 0 <= i < |r.state.ledger| :: r.state.ledger[i] == if i < |s.ledger| then s.ledger[i] else r.attempt.value;
    QueryShowsLedger(r.state.ledger, render);
  }

  /** The state after feeding the first `k` requests through the endpoint one after another. */
  function StateAfter(s: State, reqs: seq<Request>, envs: seq<Env>, k: nat): State
    requires |envs| == |reqs|
    requires k <= |reqs|
  {
    if k == 0 then s else Receive(StateAfter(s, reqs, envs, k - 1), reqs[k - 1], envs[k - 1]).state
  }

  /** The result of the k-th request of a sequence, counting from 0. */
  function StepAt(s: State, reqs: seq<Request>, envs: seq<Env>, k: nat): StepResult
    requires |envs| == |reqs|
    requires k < |reqs|
  {
    Receive(StateAfter(s, reqs, envs, k), reqs[k], envs[k])
  }

  /** The reading `req` contributes to sensor `id`'s window: one when it is accepted and posted by `id`. */
  function ReadingFor(req: Request, id: string): (e: seq<Reading>)
    ensures |e| <= 1
    ensures |e| == 1 <==> Validate(req).Ok? && Validate(req).value.sensorId == id
    ensures |e| == 1 ==> e[0] == Validate(req).value.reading
  {
    match Validate(req)
    case Err(_) => []
    case Ok(p) => if p.sensorId == id then [p.reading] else []
  }

  /**
    The readings of sensor `id`'s accepted requests among the first `k`, in
    order; rejected requests and other sensors' posts contribute nothing.
   */
  function AcceptedReadings(reqs: seq<Request>, id: string, k: nat): (xs: seq<Reading>)
    requires k <= |reqs|
    ensures |xs| <= k
  {
    if k == 0 then [] else AcceptedReadings(reqs, id, k - 1) + ReadingFor(reqs[k - 1], id)
  }

  /** The windows after the first `k` requests; only the accepted ones touch them. */
  function WindowsAfter(windows: map<string, seq<Reading>>, reqs: seq<Request>, k: nat): map<string, seq<Reading>>
    requires k <= |reqs|
  {
    if k == 0 then windows
    else
      var prev := WindowsAfter(windows, reqs, k - 1);
      match Validate(reqs[k - 1])
      case Err(_) => prev
      case Ok(p) => prev[p.sensorId := Push(WindowOf(prev, p.sensorId), p.reading)]
  }

  /** The windows do not depend on the model, the clock or the ledger. */
  lemma {:induction false} WindowsIgnoreEnv(s: State, reqs: seq<Request>, envs: seq<Env>, k: nat)
    requires |envs| == |reqs| && k <= |reqs|
    ensures StateAfter(s, reqs, envs, k).windows == WindowsAfter(s.windows, reqs, k)
    decreases k
  {
    if k > 0 {
      WindowsIgnoreEnv(s, reqs, envs, k - 1);
    }
  }

  /** A buffer with the at most one reading `e` pushed. */
  function Extend<T>(w: seq<T>, e: seq<T>): seq<T>
  {
    if |e| == 0 then w else Push(w, e[0])
  }

  /** The k-th request pushes into `id`'s window exactly the reading it contributes to `id`. */
  lemma KthRequestUpdates(windows: map<string, seq<Reading>>, id: string, reqs: seq<Request>, k: nat)
    requires 0 < k <= |reqs|
    ensures var before := WindowOf(WindowsAfter(windows, reqs, k - 1), id);
      var e := ReadingFor(reqs[k - 1], id);
      WindowOf(WindowsAfter(windows, reqs, k), id) == Extend(before, e)
    ensures |ReadingFor(reqs[k - 1], id)| == 1 ==> id in WindowsAfter(windows, reqs, k)
  {
  }

  /** The buffer of a stream extended by at most one value is the stream's buffer with that value pushed. */
  lemma HistoryExtend<T>(xs: seq<T>, e: seq<T>)
    requires |e| <= 1
    ensures History(xs + e) == Extend(History(xs), e)
  {
    if |e| == 0 {
      assert xs + e == xs;
    } else {
      assert (xs + e)[..|xs|] == xs;
    }
  }

  /**
    Whatever the other sensors post and however many requests are rejected
    in between, a new sensor's window after `k` requests is the buffer built
    from its own accepted readings among them.
   */
  lemma {:induction false} WindowIsHistory(windows: map<string, seq<Reading>>, id: string, reqs: seq<Request>, k: nat)
    requires k <= |reqs|
    requires id !in windows
    ensures WindowOf(WindowsAfter(windows, reqs, k), id) == History(AcceptedReadings(reqs, id, k))
    decreases k
  {
    if k > 0 {
      var xs, e := AcceptedReadings(reqs, id, k - 1), ReadingFor(reqs[k - 1], id);
      assert AcceptedReadings(reqs, id, k) == xs + e;
      WindowIsHistory(windows, id, reqs, k - 1);
      KthRequestUpdates(windows, id, reqs, k);
      HistoryExtend(xs, e);
    }
  }

  /**
    A new sensor's window after `k` requests, interleaved with other sensors
    and rejected requests, is the newest suffix of its own accepted readings.
   */
  lemma WindowTracksPosts(windows: map<string, seq<Reading>>, id: string, reqs: seq<Request>, k: nat)
    requires k <= |reqs|
    requires id !in windows
    ensures WindowOf(WindowsAfter(windows, reqs, k), id) == NewestSuffix(AcceptedReadings(reqs, id, k))
  {
    WindowIsHistory(windows, id, reqs, k);
    HistoryIsNewestSuffix(AcceptedReadings(reqs, id, k));
  }

  /**
    When request `k` is accepted as sensor `id`'s m-th reading (`m` counted
    from 1 over its accepted requests so far), it only builds history while
    `m < 3`; from then on it is scored on the vector of that reading and the
    sensor's two accepted readings before it, newest first.
   */
  lemma WarmUpThenScored(s: State, id: string, reqs: seq<Request>, envs: seq<Env>, k: nat)
    requires |envs| == |reqs| && k < |reqs|
    requires Validate(reqs[k]).Ok? && Validate(reqs[k]).value.sensorId == id
    requires id !in s.windows
    ensures var ys := AcceptedReadings(reqs, id, k + 1);
      |ys| > 0 && ys[|ys| - 1] == Validate(reqs[k]).value.reading
    ensures var m := |AcceptedReadings(reqs, id, k + 1)|;
      StepAt(s, reqs, envs, k).outcome.BuildingHistory? <==> m < LagFeaturesCount
    ensures var ys := AcceptedReadings(reqs, id, k + 1);
      |ys| >= LagFeaturesCount ==>
        StepAt(s, reqs, envs, k).scored == Some(FeatureVector(ys[|ys| - LagFeaturesCount..]))
  {
    WindowAtStep(s, id, reqs, envs, k);
  }

  /** After request `k`, accepted from sensor `id`, the sensor's window holds the newest of its accepted readings. */
  lemma WindowAtStep(s: State, id: string, reqs: seq<Request>, envs: seq<Env>, k: nat)
    requires |envs| == |reqs| && k < |reqs|
    requires Validate(reqs[k]).Ok? && Validate(reqs[k]).value.sensorId == id
    requires id !in s.windows
    ensures var windows := StepAt(s, reqs, envs, k).state.windows;
      id in windows && windows[id] == NewestSuffix(AcceptedReadings(reqs, id, k + 1))
  {
    WindowsIgnoreEnv(s, reqs, envs, k + 1);
    KthRequestUpdates(s.windows, id, reqs, k + 1);
    WindowTracksPosts(s.windows, id, reqs, k + 1);
    assert StateAfter(s, reqs, envs, k + 1) == StepAt(s, reqs, envs, k).state;
  }
}

=== FILE: ledger.dfy ===
/**
  The anomaly ledger as seen from the backend: an append-only sequence of
  records, stored by the contract as 5-tuples, an append that may or may
  not be mined, and the read endpoint that renders every stored tuple.
 */
module Ledger {
  import opened Optional

  /** One logged anomaly. */
  datatype AnomalyRecord = AnomalyRecord(
    timestamp: int,
    sensorId: string,
    dataValue: int,
    anomalyType: string,
    explanation: string)

  /** The contract's storage layout, in the argument order of `logAnomaly`. */
  type Entry = (int, string, int, string, string)

  function Encode(r: AnomalyRecord): Entry
  {
    (r.timestamp, r.sensorId, r.dataValue, r.anomalyType, r.explanation)
  }

  function Decode(e: Entry): AnomalyRecord
  {
    AnomalyRecord(e.0, e.1, e.2, e.3, e.4)
  }

  /** What `getAllAnomalies` returns for a ledger holding `records`. */
  function EncodeAll(records: seq<AnomalyRecord>): (es: seq<Entry>)
    ensures |es| == |records|
    ensures forall i | 0 <= i < |records| :: Decode(es[i]) == records[i]
  {
    if records == [] then [] else [Encode(records[0])] + EncodeAll(records[1..])
  }

  /**
    The effect of one append attempt: the record is added at the end when
    the transaction is mined with status 1, and nothing is added when it
    reverts or raises.
   */
  function Append(ledger: seq<AnomalyRecord>, r: AnomalyRecord, mined: bool): (ledger': seq<AnomalyRecord>)
    ensures |ledger'| == |ledger| + (if mined then 1 else 0)
    ensures ledger'[..|ledger|] == ledger
    ensures mined ==> ledger'[|ledger|] == r
  {
    if mined then ledger + [r] else ledger
  }

  /** One element of the `/anomalies` response. */
  datatype AnomalyView = AnomalyView(
    timestamp: int,
    datetime: string,
    sensorId: string,
    dataValue: int,
    anomalyType: string,
    explanation: string)

  /**
    Why the read endpoint answers 500: the contract call raised, or a stored
    timestamp lies outside the range `datetime.fromtimestamp` accepts.
   */
  datatype QueryError = FetchFailed | UnrenderableTimestamp

  /** Every fetched timestamp can be rendered as a local date. */
  predicate Renderable(es: seq<Entry>, render: int -> Option<string>)
  {
    forall i | 0 <= i < |es| :: render(es[i].0).Some?
  }

  /** Renders the fetched tuples one by one, keeping their order. */
  function FormatAll(es: seq<Entry>, render: int -> Option<string>): (vs: seq<AnomalyView>)
    requires Renderable(es, render)
    ensures |vs| == |es|
    ensures forall i | 0 <= i < |es| ::
      && vs[i].timestamp == es[i].0
      && Some(vs[i].datetime) == render(es[i].0)
      && vs[i].sensorId == es[i].1
      && vs[i].dataValue == es[i].2
      && vs[i].anomalyType == es[i].3
      && vs[i].explanation == es[i].4
  {
    if es == [] then []
    else
      var e := es[0];
      [AnomalyView(e.0, render(e.0).value, e.1, e.2, e.3, e.4)] + FormatAll(es[1..], render)
  }

  /**
    `get_anomalies`: `fetched` is the result of the contract call (None when
    it raised) and `render` the local-time ISO rendering of a timestamp (None
    when `datetime.fromtimestamp` raises). Both failures are caught by the
    same handler.
   */
  function GetAnomalies(fetched: Option<seq<Entry>>, render: int -> Option<string>): (r: Result<seq<AnomalyView>, QueryError>)
    ensures r.Ok? <==> fetched.Some? && forall i | 0 <= i < |fetched.value| :: render(fetched.value[i].0).Some?
    ensures r == Err(FetchFailed) <==> fetched.None?
    ensures r.Ok? ==> |r.value| == |fetched.value|
    ensures r.Ok? ==> forall i | 0 <= i < |r.value| ::
      && r.value[i].timestamp == fetched.value[i].0
      && Some(r.value[i].datetime) == render(fetched.value[i].0)
      && r.value[i].sensorId == fetched.value[i].1
      && r.value[i].dataValue == fetched.value[i].2
      && r.value[i].anomalyType == fetched.value[i].3
      && r.value[i].explanation == fetched.value[i].4
  {
    match fetched
    case None => Err(FetchFailed)
    case Some(es) =>
      if Renderable(es, render) then Ok(FormatAll(es, render)) else Err(UnrenderableTimestamp)
  }

  /** One stored timestamp outside the renderable range makes the whole read fail. */
  lemma OneBadTimestampFailsRead(es: seq<Entry>, render: int -> Option<string>, i: nat)
    requires i < |es| && render(es[i].0).None?
    ensures GetAnomalies(Some(es), render) == Err(UnrenderableTimestamp)
  {
  }

  /** The record a view shows, with the rendered date dropped. */
  function Shown(v: AnomalyView): AnomalyRecord
  {
    AnomalyRecord(v.timestamp, v.sensorId, v.dataValue, v.anomalyType, v.explanation)
  }

  /** Reading the ledger back shows exactly its records, in append order. */
  lemma QueryShowsLedger(records: seq<AnomalyRecord>, render: int -> Option<string>)
    requires forall i | 0 <= i < |records| :: render(records[i].timestamp).Some?
    ensures GetAnomalies(Some(EncodeAll(records)), render).Ok?
    ensures var vs := GetAnomalies(Some(EncodeAll(records)), render).value;
      |vs| == |records| && forall i | 0 <= i < |vs| :: Shown(vs[i]) == records[i]
  {
    var es := EncodeAll(records);
    assert Renderable(es, render) by {
      forall i | 0 <= i < |es|
        ensures render(es[i].0).Some?
      {
        assert Decode(es[i]) == records[i];
      }
    }
    var vs := GetAnomalies(Some(es), render).value;
    forall i | 0 <= i < |vs|
      ensures Shown(vs[i]) == records[i]
    {
      assert Decode(es[i]) == records[i];
    }
  }
}

=== FILE: optional.dfy ===
/** Failure-carrying wrappers shared by the other modules. */
module Optional {

  /** A value that may be absent. */
  datatype Option<+T> = None | Some(value: T)

  /** Either a successful value or an error describing why there is none. */
  datatype Result<+T, +E> = Ok(value: T) | Err(error: E)
}

=== FILE: simulator.dfy ===
/**
  The traffic simulator's anomaly injection: a per-sensor state machine that
  starts an anomaly with a 5% chance whenever no countdown is running, keeps
  it while the countdown runs down, and a case split that distorts a base
  reading according to the active anomaly type. Random draws are parameters:
  `random.random()` and the unit draw behind `random.uniform` are reals in
  [0, 1), `random.choice` is an index and `random.randint(3, 10)` an integer.
 */
module Simulator {
  import opened Optional
  import Window

  /** The anomaly types the simulator picks from, in the order of its list. */
  datatype AnomalyKind = Point | Contextual | ChangePointHigh | ChangePointLow
  {
    /** The name passed to the injection function. */
    function Name(): string
    {
      match this
      case Point => "point"
      case Contextual => "contextual"
      case ChangePointHigh => "change_point_high"
      case ChangePointLow => "change_point_low"
    }
  }

  const AnomalyKinds: seq<AnomalyKind> := [Point, Contextual, ChangePointHigh, ChangePointLow]
  /** Probability of starting an anomaly in an interval with no countdown running. */
  const StartChance: real := 0.05
  /** Bounds of `random.randint` for a new anomaly's countdown. */
  const MinCountdown: int := 3
  const MaxCountdown: int := 10

  const NormalExplanation: string := "Normal operation"

  /** The type names the injection function recognises. */
  const KnownTypes: set<string> := {"point", "contextual", "change_point_high", "change_point_low"}

  /** `random.uniform(a, b)` for a unit draw `u`. */
  function Uniform(a: real, b: real, u: real): (x: real)
    requires a <= b && 0.0 <= u < 1.0
    ensures a <= x <= b
  {
    var d := b - a;
    assert 0.0 <= d * u <= d by {
      if d > 0.0 { assert d * u < d * 1.0; }
    }
    a + d * u
  }

  /** A distorted reading and the simulator's explanation of it. */
  datatype Injected = Injected(temperature: real, humidity: real, pressure: real, explanation: string)

  /** `inject_anomaly` with its first and second uniform draws `u1` and `u2`. */
  function InjectAnomaly(temp: real, hum: real, pres: real, anomalyType: string, u1: real, u2: real): (r: Injected)
    requires 0.0 <= u1 < 1.0 && 0.0 <= u2 < 1.0
    ensures r.pressure == pres
    ensures anomalyType !in KnownTypes ==> r == Injected(temp, hum, pres, NormalExplanation)
    ensures anomalyType == "point" ==>
      temp + 50.0 <= r.temperature <= temp + 100.0 && r.humidity == hum
    ensures anomalyType == "contextual" ==>
      28.0 <= r.temperature <= 32.0 && 85.0 <= r.humidity <= 95.0
    ensures anomalyType == "change_point_high" ==>
      temp + 10.0 <= r.temperature <= temp + 15.0 && hum + 8.0 <= r.humidity <= hum + 12.0
    ensures anomalyType == "change_point_low" ==>
      temp - 15.0 <= r.temperature <= temp - 10.0 && hum - 12.0 <= r.humidity <= hum - 8.0
  {
    if anomalyType == "point" then
      Injected(temp + Uniform(50.0, 100.0, u1), hum, pres, "Point Anomaly: Extreme temperature spike")
    else if anomalyType == "contextual" then
      Injected(Uniform(28.0, 32.0, u1), Uniform(85.0, 95.0, u2), pres, "Contextual Anomaly: High temp/hum in 'cold' context")
    else if anomalyType == "change_point_high" then
      Injected(temp + Uniform(10.0, 15.0, u1), hum + Uniform(8.0, 12.0, u2), pres, "Change Point: Sustained high readings")
    else if anomalyType == "change_point_low" then
      Injected(temp - Uniform(10.0, 15.0, u1), hum - Uniform(8.0, 12.0, u2), pres, "Change Point: Sustained low readings")
    else
      Injected(temp, hum, pres, NormalExplanation)
  }

  /** A contextual anomaly does not depend on the base reading's temperature or humidity. */
  lemma ContextualIgnoresBase(t1: real, h1: real, t2: real, h2: real, pres: real, u1: real, u2: real)
    requires 0.0 <= u1 < 1.0 && 0.0 <= u2 < 1.0
    ensures InjectAnomaly(t1, h1, pres, "contextual", u1, u2) == InjectAnomaly(t2, h2, pres, "contextual", u1, u2)
  {
  }

  /** With the same draws, a low change point is the mirror image of a high one about the base reading. */
  lemma ChangePointsMirror(temp: real, hum: real, pres: real, u1: real, u2: real)
    requires 0.0 <= u1 < 1.0 && 0.0 <= u2 < 1.0
    ensures var high := InjectAnomaly(temp, hum, pres, "change_point_high", u1, u2);
      var low := InjectAnomaly(temp, hum, pres, "change_point_low", u1, u2);
      high.temperature - temp == temp - low.temperature && high.humidity - hum == hum - low.humidity
  {
  }

  /** Per-sensor injection state. */
  datatype SensorState = SensorState(current: Option<AnomalyKind>, countdown: int)

  const InitialState: SensorState := SensorState(None, 0)

  /** The random draws of one interval for one sensor. */
  datatype Draws = Draws(start: real, choice: nat, length: int, u1: real, u2: real)

  predicate ValidDraws(d: Draws)
  {
    && 0.0 <= d.start < 1.0
    && d.choice < |AnomalyKinds|
    && MinCountdown <= d.length <= MaxCountdown
    && 0.0 <= d.u1 < 1.0 && 0.0 <= d.u2 < 1.0
  }

  /** Whether an interval's draws start a new anomaly, if no countdown is running. */
  predicate Starts(d: Draws)
  {
    d.start < StartChance
  }

  /**
    The per-interval update of a sensor's injection state: a running
    countdown ticks down with the type kept; otherwise a new anomaly starts
    with a fresh countdown, or the type is cleared.
   */
  function Advance(s: SensorState, d: Draws): (s': SensorState)
    requires ValidDraws(d)
    ensures s.countdown > 0 ==> s'.current == s.current && s'.countdown == s.countdown - 1
    ensures s.countdown <= 0 && Starts(d) ==>
      s'.current == Some(AnomalyKinds[d.choice]) && s'.countdown == d.length
    ensures s.countdown <= 0 && Starts(d) ==> MinCountdown <= s'.countdown <= MaxCountdown
    ensures s.countdown <= 0 && !Starts(d) ==> s'.current.None? && s'.countdown == s.countdown
    ensures s.countdown >= 0 ==> s'.countdown >= 0
  {
    if s.countdown > 0 then SensorState(s.current, s.countdown - 1)
    else if Starts(d) then SensorState(Some(AnomalyKinds[d.choice]), d.length)
    else SensorState(None, s.countdown)
  }

  predicate AllValid(ds: seq<Draws>)
  {
    forall j | 0 <= j < |ds| :: ValidDraws(ds[j])
  }

  /** The sensor's state after each interval of a run, starting from `s`. */
  function Run(s: SensorState, ds: seq<Draws>): (states: seq<SensorState>)
    requires AllValid(ds)
    ensures |states| == |ds|
    decreases |ds|
  {
    if ds == [] then []
    else
      var s' := Advance(s, ds[0]);
      [s'] + Run(s', ds[1..])
  }

  /** How many intervals at the start of a run have an anomaly active. */
  function LeadingActive(states: seq<SensorState>): (n: nat)
    ensures n <= |states|
  {
    if states == [] || states[0].current.None? then 0 else 1 + LeadingActive(states[1..])
  }

  /**
    `n` is the length of a run's leading active stretch exactly when the
    first `n` states are active and the state after them, if any, is not.
   */
  lemma {:induction false} LeadingActiveCharacterized(states: seq<SensorState>, n: nat)
    ensures LeadingActive(states) == n <==>
      && n <= |states|
      && (forall j | 0 <= j < n :: states[j].current.Some?)
      && (n < |states| ==> states[n].current.None?)
    decreases |states|
  {
    if states != [] && states[0].current.Some? {
      if n > 0 {
        LeadingActiveCharacterized(states[1..], n - 1);
        assert forall j | 1 <= j < |states| :: states[j] == states[1..][j - 1];
      }
    }
  }

  /** A run's leading active stretch is its first state's plus the rest's, or empty when the first is inactive. */
  lemma LeadingActiveCons(x: SensorState, rest: seq<SensorState>)
    ensures LeadingActive([x] + rest) == if x.current.None? then 0 else 1 + LeadingActive(rest)
  {
    assert ([x] + rest)[1..] == rest;
  }

  /** While a countdown `c` runs, the next `c` intervals keep the type and count down to zero. */
  lemma {:induction false} CountdownKeepsType(s: SensorState, ds: seq<Draws>)
    requires AllValid(ds)
    requires s.countdown >= 0 && |ds| >= s.countdown
    ensures forall j | 0 <= j < s.countdown ::
      Run(s, ds)[j].current == s.current && Run(s, ds)[j].countdown == s.countdown - 1 - j
    decreases s.countdown
  {
    if s.countdown > 0 {
      var s' := Advance(s, ds[0]);
      CountdownKeepsType(s', ds[1..]);
      assert Run(s, ds) == [s'] + Run(s', ds[1..]);
    }
  }

  /**
    An active state with countdown `c` stays active for exactly `c` more
    intervals when the draw at the countdown's expiry does not start another
    anomaly.
   */
  lemma {:induction false} ActiveUntilExpiry(s: SensorState, ds: seq<Draws>)
    requires AllValid(ds)
    requires s.current.Some? && s.countdown >= 0
    requires |ds| > s.countdown && !Starts(ds[s.countdown])
    ensures LeadingActive(Run(s, ds)) == s.countdown
    decreases s.countdown
  {
    var s' := Advance(s, ds[0]);
    assert Run(s, ds) == [s'] + Run(s', ds[1..]);
    LeadingActiveCons(s', Run(s', ds[1..]));
    if s.countdown > 0 {
      assert ds[1..][s'.countdown] == ds[s.countdown];
      ActiveUntilExpiry(s', ds[1..]);
    }
  }

  /**
    As written: an anomaly started with countdown `L` is injected on the
    starting interval and on the `L` intervals after it, so when the draw
    at its expiry does not start another, it is active on exactly `L + 1`
    consecutive intervals, between 4 and 11.
   */
  lemma {:induction false} AnomalyLastsCountdownPlusOne(s: SensorState, ds: seq<Draws>)
    requires AllValid(ds)
    requires s.countdown == 0 && |ds| > 0 && Starts(ds[0])
    requires |ds| > ds[0].length + 1 && !Starts(ds[ds[0].length + 1])
    ensures LeadingActive(Run(s, ds)) == ds[0].length + 1
    ensures MinCountdown + 1 <= LeadingActive(Run(s, ds)) <= MaxCountdown + 1
  {
    var s1 := Advance(s, ds[0]);
    assert Run(s, ds) == [s1] + Run(s1, ds[1..]);
    ActiveUntilExpiry(s1, ds[1..]);
  }

  /** The draw `randint(3, 10) = 10` keeps an anomaly active for 11 intervals, more than the 3-10 intended. */
  lemma LongestAnomalyOverruns()
    ensures var d0 := Draws(0.0, 0, MaxCountdown, 0.0, 0.0);
      var rest := Draws(0.5, 0, MinCountdown, 0.0, 0.0);
      var ds := [d0] + seq(MaxCountdown + 1, _ => rest);
      LeadingActive(Run(InitialState, ds)) == MaxCountdown + 1
  {
    var d0 := Draws(0.0, 0, MaxCountdown, 0.0, 0.0);
    var rest := Draws(0.5, 0, MinCountdown, 0.0, 0.0);
    var ds := [d0] + seq(MaxCountdown + 1, _ => rest);
    AnomalyLastsCountdownPlusOne(InitialState, ds);
  }

  /**
    The update as its comment describes it: a new anomaly lasts `randint(3, 10)`
    intervals, counting the one it starts in.
   */
  function AdvanceIntended(s: SensorState, d: Draws): (s': SensorState)
    requires ValidDraws(d)
    ensures s.countdown > 0 ==> s'.current == s.current && s'.countdown == s.countdown - 1
    ensures s.countdown <= 0 && Starts(d) ==>
      s'.current == Some(AnomalyKinds[d.choice]) && s'.countdown == d.length - 1
    ensures s.countdown <= 0 && Starts(d) ==> MinCountdown - 1 <= s'.countdown <= MaxCountdown - 1
    ensures s.countdown <= 0 && !Starts(d) ==> s'.current.None? && s'.countdown == s.countdown
    ensures s.countdown >= 0 ==> s'.countdown >= 0
  {
    if s.countdown > 0 then SensorState(s.current, s.countdown - 1)
    else if Starts(d) then SensorState(Some(AnomalyKinds[d.choice]), d.length - 1)
    else SensorState(None, s.countdown)
  }

  function RunIntended(s: SensorState, ds: seq<Draws>): (states: seq<SensorState>)
    requires AllValid(ds)
    ensures |states| == |ds|
    decreases |ds|
  {
    if ds == [] then []
    else
      var s' := AdvanceIntended(s, ds[0]);
      [s'] + RunIntended(s', ds[1..])
  }

  /** While a countdown `c` runs under the intended update, the next `c` intervals keep the type. */
  lemma {:induction false} IntendedCountdownKeepsType(s: SensorState, ds: seq<Draws>)
    requires AllValid(ds)
    requires s.countdown >= 0 && |ds| >= s.countdown
    ensures forall j | 0 <= j < s.countdown ::
      RunIntended(s, ds)[j].current == s.current && RunIntended(s, ds)[j].countdown == s.countdown - 1 - j
    decreases s.countdown
  {
    if s.countdown > 0 {
      var s' := AdvanceIntended(s, ds[0]);
      IntendedCountdownKeepsType(s', ds[1..]);
      assert RunIntended(s, ds) == [s'] + RunIntended(s', ds[1..]);
    }
  }

  /** `ActiveUntilExpiry` for the intended update. */
  lemma {:induction false} IntendedActiveUntilExpiry(s: SensorState, ds: seq<Draws>)
    requires AllValid(ds)
    requires s.current.Some? && s.countdown >= 0
    requires |ds| > s.countdown && !Starts(ds[s.countdown])
    ensures LeadingActive(RunIntended(s, ds)) == s.countdown
    decreases s.countdown
  {
    var s' := AdvanceIntended(s, ds[0]);
    assert RunIntended(s, ds) == [s'] + RunIntended(s', ds[1..]);
    LeadingActiveCons(s', RunIntended(s', ds[1..]));
    if s.countdown > 0 {
      assert ds[1..][s'.countdown] == ds[s.countdown];
      IntendedActiveUntilExpiry(s', ds[1..]);
    }
  }

  /** Under the intended update an anomaly drawn with length `L` is active on exactly `L` intervals, 3 to 10. */
  lemma {:induction false} IntendedAnomalyLastsItsLength(s: SensorState, ds: seq<Draws>)
    requires AllValid(ds)
    requires s.countdown == 0 && |ds| > 0 && Starts(ds[0])
    requires |ds| > ds[0].length && !Starts(ds[ds[0].length])
    ensures LeadingActive(RunIntended(s, ds)) == ds[0].length
    ensures MinCountdown <= LeadingActive(RunIntended(s, ds)) <= MaxCountdown
  {
    var s1 := AdvanceIntended(s, ds[0]);
    assert RunIntended(s, ds) == [s1] + RunIntended(s1, ds[1..]);
    IntendedActiveUntilExpiry(s1, ds[1..]);
  }

  /**
    The reading sent in an interval whose updated state is `st`: the base
    reading as normal operation when no type is active, otherwise
    `inject_anomaly` of the active type with the interval's draws.
   */
  function Distort(st: SensorState, temp: real, hum: real, pres: real, d: Draws): (r: Injected)
    requires ValidDraws(d)
    ensures r.pressure == pres
    ensures st.current.None? <==> r.explanation == NormalExplanation
  {
    match st.current
    case None => Injected(temp, hum, pres, NormalExplanation)
    case Some(k) => InjectAnomaly(temp, hum, pres, k.Name(), d.u1, d.u2)
  }

  /** One interval for one sensor as written: advance the state, then distort the base reading when a type is active. */
  function IntervalAsWritten(s: SensorState, temp: real, hum: real, pres: real, d: Draws): (r: (SensorState, Injected))
    requires ValidDraws(d)
    ensures r.0 == Advance(s, d)
    ensures r.0.current.None? ==> r.1 == Injected(temp, hum, pres, NormalExplanation)
    ensures r.0.current.Some? ==> r.1 == InjectAnomaly(temp, hum, pres, r.0.current.value.Name(), d.u1, d.u2)
    ensures r.0.current.Some? ==> r.1.explanation != NormalExplanation
    ensures r.1.pressure == pres
  {
    var s' := Advance(s, d);
    (s', Distort(s', temp, hum, pres, d))
  }

  /**
    One interval for one sensor under the corrected countdown: advance the
    state, then distort the base reading when a type is active.
   */
  function Interval(s: SensorState, temp: real, hum: real, pres: real, d: Draws): (r: (SensorState, Injected))
    requires ValidDraws(d)
    ensures r.0 == AdvanceIntended(s, d)
    ensures r.0.current.None? ==> r.1 == Injected(temp, hum, pres, NormalExplanation)
    ensures r.0.current.Some? ==> r.1 == InjectAnomaly(temp, hum, pres, r.0.current.value.Name(), d.u1, d.u2)
    ensures r.0.current.Some? ==> r.1.explanation != NormalExplanation
    ensures r.1.pressure == pres
  {
    var s' := AdvanceIntended(s, d);
    (s', Distort(s', temp, hum, pres, d))
  }

  /** The readings one sensor sends over a run of intervals under the corrected countdown. */
  function Simulate(s: SensorState, bases: seq<Window.Reading>, ds: seq<Draws>): (out: seq<Injected>)
    requires AllValid(ds) && |bases| == |ds|
    ensures |out| == |ds|
    ensures forall j | 0 <= j < |ds| :: out[j].pressure == bases[j].pressure
    decreases |ds|
  {
    if ds == [] then []
    else
      var b := bases[0];
      var r := Interval(s, b.temperature, b.humidity, b.pressure, ds[0]);
      [r.1] + Simulate(r.0, bases[1..], ds[1..])
  }

  /** The j-th reading of a run is distorted exactly by the type the corrected countdown has active in interval j. */
  lemma {:induction false} SimulateFollowsRun(s: SensorState, bases: seq<Window.Reading>, ds: seq<Draws>, j: nat)
    requires AllValid(ds) && |bases| == |ds| && j < |ds|
    ensures var st := RunIntended(s, ds)[j];
      var b := bases[j];
      var out := Simulate(s, bases, ds)[j];
      && (st.current.None? ==> out == Injected(b.temperature, b.humidity, b.pressure, NormalExplanation))
      && (st.current.Some? ==> out == InjectAnomaly(b.temperature, b.humidity, b.pressure, st.current.value.Name(), ds[j].u1, ds[j].u2))
    decreases j
  {
    var b := bases[0];
    var r := Interval(s, b.temperature, b.humidity, b.pressure, ds[0]);
    assert Simulate(s, bases, ds) == [r.1] + Simulate(r.0, bases[1..], ds[1..]);
    assert RunIntended(s, ds) == [r.0] + RunIntended(r.0, ds[1..]);
    if j > 0 {
      SimulateFollowsRun(r.0, bases[1..], ds[1..], j - 1);
      assert bases[1..][j - 1] == bases[j] && ds[1..][j - 1] == ds[j];
    }
  }

  /** Under the corrected update, an anomaly drawn with length `L` keeps its type for `L` intervals and is gone in the next. */
  lemma IntendedRunActive(s: SensorState, ds: seq<Draws>)
    requires AllValid(ds)
    requires s.countdown == 0 && |ds| > 0 && Starts(ds[0])
    requires |ds| > ds[0].length && !Starts(ds[ds[0].length])
    ensures forall j | 0 <= j < ds[0].length :: RunIntended(s, ds)[j].current == Some(AnomalyKinds[ds[0].choice])
    ensures RunIntended(s, ds)[ds[0].length].current.None?
  {
    IntendedKeepsKind(s, ds);
    IntendedAnomalyLastsItsLength(s, ds);
    LeadingActiveCharacterized(RunIntended(s, ds), ds[0].length);
  }

  /** Under the corrected update, the type drawn at a start stays for the `L` intervals from the starting one. */
  lemma IntendedKeepsKind(s: SensorState, ds: seq<Draws>)
    requires AllValid(ds)
    requires s.countdown == 0 && |ds| > 0 && |ds| >= ds[0].length && Starts(ds[0])
    ensures forall j | 0 <= j < ds[0].length :: RunIntended(s, ds)[j].current == Some(AnomalyKinds[ds[0].choice])
  {
    var s1 := AdvanceIntended(s, ds[0]);
    assert RunIntended(s, ds) == [s1] + RunIntended(s1, ds[1..]);
    IntendedCountdownKeepsType(s1, ds[1..]);
    forall j | 1 <= j < ds[0].length
      ensures RunIntended(s, ds)[j].current == s1.current
    {
      assert RunIntended(s, ds)[j] == RunIntended(s1, ds[1..])[j - 1];
    }
  }

  /**
    An anomaly drawn with length `L` distorts exactly the `L` consecutive
    readings starting with the one it is drawn in, all with its type and
    each interval's own draws, and the next reading is normal operation.
   */
  lemma AnomalyDistortsItsLength(s: SensorState, bases: seq<Window.Reading>, ds: seq<Draws>)
    requires AllValid(ds) && |bases| == |ds|
    requires s.countdown == 0 && |ds| > 0 && Starts(ds[0])
    requires |ds| > ds[0].length && !Starts(ds[ds[0].length])
    ensures var out := Simulate(s, bases, ds);
      var name := AnomalyKinds[ds[0].choice].Name();
      forall j | 0 <= j < ds[0].length ::
        out[j] == InjectAnomaly(bases[j].temperature, bases[j].humidity, bases[j].pressure, name, ds[j].u1, ds[j].u2)
    ensures var b := bases[ds[0].length];
      Simulate(s, bases, ds)[ds[0].length] == Injected(b.temperature, b.humidity, b.pressure, NormalExplanation)
  {
    IntendedRunActive(s, ds);
    forall j | 0 <= j <= ds[0].length {
      SimulateFollowsRun(s, bases, ds, j);
    }
  }

  /** The readings one sensor sends over a run of intervals, with the countdown as written. */
  function SimulateAsWritten(s: SensorState, bases: seq<Window.Reading>, ds: seq<Draws>): (out: seq<Injected>)
    requires AllValid(ds) && |bases| == |ds|
    ensures |out| == |ds|
    ensures forall j | 0 <= j < |ds| :: out[j].pressure == bases[j].pressure
    decreases |ds|
  {
    if ds == [] then []
    else
      var b := bases[0];
      var r := IntervalAsWritten(s, b.temperature, b.humidity, b.pressure, ds[0]);
      [r.1] + SimulateAsWritten(r.0, bases[1..], ds[1..])
  }

  /** As written, the j-th reading of a run is distorted exactly by the type `Run` has active in interval j. */
  lemma {:induction false} SimulateAsWrittenFollowsRun(s: SensorState, bases: seq<Window.Reading>, ds: seq<Draws>, j: nat)
    requires AllValid(ds) && |bases| == |ds| && j < |ds|
    ensures var st := Run(s, ds)[j];
      var b := bases[j];
      var out := SimulateAsWritten(s, bases, ds)[j];
      && (st.current.None? ==> out == Injected(b.temperature, b.humidity, b.pressure, NormalExplanation))
      && (st.current.Some? ==> out == InjectAnomaly(b.temperature, b.humidity, b.pressure, st.current.value.Name(), ds[j].u1, ds[j].u2))
    decreases j
  {
    var b := bases[0];
    var r := IntervalAsWritten(s, b.temperature, b.humidity, b.pressure, ds[0]);
    assert SimulateAsWritten(s, bases, ds) == [r.1] + SimulateAsWritten(r.0, bases[1..], ds[1..]);
    assert Run(s, ds) == [r.0] + Run(r.0, ds[1..]);
    if j > 0 {
      SimulateAsWrittenFollowsRun(r.0, bases[1..], ds[1..], j - 1);
      assert bases[1..][j - 1] == bases[j] && ds[1..][j - 1] == ds[j];
    }
  }

  /** As written, an anomaly started with countdown `L` keeps its type for `L + 1` intervals and is gone in the next. */
  lemma AsWrittenRunActive(s: SensorState, ds: seq<Draws>)
    requires AllValid(ds)
    requires s.countdown == 0 && |ds| > 0 && Starts(ds[0])
    requires |ds| > ds[0].length + 1 && !Starts(ds[ds[0].length + 1])
    ensures forall j | 0 <= j <= ds[0].length :: Run(s, ds)[j].current == Some(AnomalyKinds[ds[0].choice])
    ensures Run(s, ds)[ds[0].length + 1].current.None?
  {
    AsWrittenKeepsKind(s, ds);
    AnomalyLastsCountdownPlusOne(s, ds);
    LeadingActiveCharacterized(Run(s, ds), ds[0].length + 1);
  }

  /** As written, the type drawn at a start stays for the starting interval and the `L` after it. */
  lemma AsWrittenKeepsKind(s: SensorState, ds: seq<Draws>)
    requires AllValid(ds)
    requires s.countdown == 0 && |ds| > 0 && |ds| > ds[0].length && Starts(ds[0])
    ensures forall j | 0 <= j <= ds[0].length :: Run(s, ds)[j].current == Some(AnomalyKinds[ds[0].choice])
  {
    var s1 := Advance(s, ds[0]);
    assert Run(s, ds) == [s1] + Run(s1, ds[1..]);
    CountdownKeepsType(s1, ds[1..]);
    forall j | 1 <= j <= ds[0].length
      ensures Run(s, ds)[j].current == s1.current
    {
      assert Run(s, ds)[j] == Run(s1, ds[1..])[j - 1];
    }
  }

  /**
    As written, an anomaly started with countdown `L` distorts the `L + 1`
    consecutive readings from the one it starts in, all with its type and
    each interval's own draws, and the next reading is normal operation.
   */
  lemma AnomalyDistortsCountdownPlusOne(s: SensorState, bases: seq<Window.Reading>, ds: seq<Draws>)
    requires AllValid(ds) && |bases| == |ds|
    requires s.countdown == 0 && |ds| > 0 && Starts(ds[0])
    requires |ds| > ds[0].length + 1 && !Starts(ds[ds[0].length + 1])
    ensures var out := SimulateAsWritten(s, bases, ds);
      var name := AnomalyKinds[ds[0].choice].Name();
      forall j | 0 <= j <= ds[0].length ::
        out[j] == InjectAnomaly(bases[j].temperature, bases[j].humidity, bases[j].pressure, name, ds[j].u1, ds[j].u2)
    ensures var b := bases[ds[0].length + 1];
      SimulateAsWritten(s, bases, ds)[ds[0].length + 1] == Injected(b.temperature, b.humidity, b.pressure, NormalExplanation)
  {
    AsWrittenRunActive(s, ds);
    forall j | 0 <= j <= ds[0].length + 1 {
      SimulateAsWrittenFollowsRun(s, bases, ds, j);
    }
  }

  /**
    The shortest draw as written: `randint(3, 10) = 3` and no new start
    distort reading 3 as well, which the corrected countdown leaves normal.
   */
  lemma ShortestAnomalyDistortsFourReadings()
    ensures var base := Window.Reading(20.0, 50.0, 1000.0);
      var d0 := Draws(0.0, 0, MinCountdown, 0.4, 0.0);
      var rest := Draws(0.5, 0, MinCountdown, 0.4, 0.0);
      var ds := [d0] + seq(MinCountdown + 1, _ => rest);
      var bases := seq(MinCountdown + 2, _ => base);
      && SimulateAsWritten(InitialState, bases, ds)[MinCountdown].temperature == 90.0
      && Simulate(InitialState, bases, ds)[MinCountdown] == Injected(20.0, 50.0, 1000.0, NormalExplanation)
  {
    var base := Window.Reading(20.0, 50.0, 1000.0);
    var d0 := Draws(0.0, 0, MinCountdown, 0.4, 0.0);
    var rest := Draws(0.5, 0, MinCountdown, 0.4, 0.0);
    var ds := [d0] + seq(MinCountdown + 1, _ => rest);
    var bases := seq(MinCountdown + 2, _ => base);
    AnomalyDistortsCountdownPlusOne(InitialState, bases, ds);
    AnomalyDistortsItsLength(InitialState, bases, ds);
  }
}

=== FILE: window.dfy ===
/**
  The per-sensor lagged-feature window shared by the online ingestion
  endpoint and the training-corpus builder: a bounded FIFO of the last
  three readings (a `deque(maxlen=3)`) and the two ways the backend
  flattens it into a nine-element feature vector.
 */
module Window {

  /** Temperature, humidity and pressure. */
  const FeaturesPerReading: nat := 3
  /** The current reading plus two lagged ones. */
  const LagFeaturesCount: nat := 3
  /** Width of every vector the model is trained on and scores. */
  const TotalFeaturesForModel: nat := FeaturesPerReading * LagFeaturesCount
  /** Capacity of a sensor's history buffer. */
  const MaxHistoryLength: nat := LagFeaturesCount

  /** One raw reading; measurements are exact reals, not floats. */
  datatype Reading = Reading(temperature: real, humidity: real, pressure: real)

  function Min(a: int, b: int): int
  {
    if a <= b then a else b
  }

  /** The j-th measurement of a reading, in the fixed order (temperature, humidity, pressure). */
  function Field(r: Reading, j: nat): real
    requires j < FeaturesPerReading
  {
    if j == 0 then r.temperature else if j == 1 then r.humidity else r.pressure
  }

  function Fields(r: Reading): (f: seq<real>)
    ensures |f| == FeaturesPerReading
    ensures forall j | 0 <= j < FeaturesPerReading :: f[j] == Field(r, j)
  {
    [r.temperature, r.humidity, r.pressure]
  }

  /**
    Appending to a `deque(maxlen=MaxHistoryLength)`: the new element goes to
    the right end and, once the capacity is exceeded, the oldest (leftmost)
    element is evicted.
   */
  function Push<T>(w: seq<T>, x: T): (w': seq<T>)
    ensures |w'| == Min(|w| + 1, MaxHistoryLength)
    ensures w'[|w'| - 1] == x
    ensures w'[..|w'| - 1] == w[|w| + 1 - |w'|..]
  {
    var s := w + [x];
    if |s| <= MaxHistoryLength then s else s[|s| - MaxHistoryLength..]
  }

  /** The last `min(n, MaxHistoryLength)` of the `n` values in `xs`. */
  function NewestSuffix<T>(xs: seq<T>): seq<T>
  {
    xs[|xs| - Min(|xs|, MaxHistoryLength)..]
  }

  /** The buffer obtained by pushing `xs`, in order, into an empty deque. */
  function History<T>(xs: seq<T>): seq<T>
  {
    if xs == [] then [] else Push(History(xs[..|xs| - 1]), xs[|xs| - 1])
  }

  /** Pushing onto the newest suffix of a stream gives the newest suffix of the longer stream. */
  lemma PushNewestSuffix<T>(xs: seq<T>, x: T)
    ensures Push(NewestSuffix(xs), x) == NewestSuffix(xs + [x])
  {
    var a := Push(NewestSuffix(xs), x);
    var b := NewestSuffix(xs + [x]);
    forall i | 0 <= i < |a|
      ensures a[i] == b[i]
    {
      if i < |a| - 1 {
        assert a[i] == a[..|a| - 1][i];
      }
    }
  }

  /** A buffer holds exactly the last `min(n, 3)` of the `n` values pushed into it, oldest first. */
  lemma {:induction false} HistoryIsNewestSuffix<T>(xs: seq<T>)
    ensures History(xs) == NewestSuffix(xs)
  {
    if xs != [] {
      var init, last := xs[..|xs| - 1], xs[|xs| - 1];
      HistoryIsNewestSuffix(init);
      assert xs == init + [last];
      PushNewestSuffix(init, last);
    }
  }

  /** The mirror image of a sequence. */
  function Reverse<T>(s: seq<T>): (r: seq<T>)
    ensures |r| == |s|
    ensures forall i | 0 <= i < |s| :: r[i] == s[|s| - 1 - i]
  {
    if s == [] then [] else Reverse(s[1..]) + [s[0]]
  }

  /** The three measurements that reading slot `i` contributes to a flattened vector. */
  function Slot(v: seq<real>, i: nat): seq<real>
    requires FeaturesPerReading * i + FeaturesPerReading <= |v|
  {
    v[FeaturesPerReading * i..FeaturesPerReading * i + FeaturesPerReading]
  }

  /** Concatenates the (temperature, humidity, pressure) triples of the readings, in sequence order. */
  function Flatten(rs: seq<Reading>): (v: seq<real>)
    ensures |v| == FeaturesPerReading * |rs|
    ensures forall i | 0 <= i < |rs| :: Slot(v, i) == Fields(rs[i])
  {
    if rs == [] then []
    else
      var rest := Flatten(rs[1..]);
      var v := Fields(rs[0]) + rest;
      assert Slot(v, 0) == Fields(rs[0]);
      assert forall i | 1 <= i < |rs| :: Slot(v, i) == Slot(rest, i - 1);
      v
  }

  /**
    The vector the ingestion endpoint scores: the window's readings from
    newest to oldest, each contributing its three measurements.
   */
  function FeatureVector(w: seq<Reading>): (v: seq<real>)
    ensures |v| == FeaturesPerReading * |w|
    ensures forall i | 0 <= i < |w| :: Slot(v, i) == Fields(w[|w| - 1 - i])
  {
    Flatten(Reverse(w))
  }

  /** A full window always yields exactly the model's input width. */
  lemma FullWindowHasModelWidth(w: seq<Reading>)
    requires |w| == LagFeaturesCount
    ensures |FeatureVector(w)| == TotalFeaturesForModel
    ensures |Flatten(w)| == TotalFeaturesForModel
  {
  }

  /** Reversing twice gives back the original sequence. */
  lemma ReverseReverse<T>(s: seq<T>)
    ensures Reverse(Reverse(s)) == s
  {
  }

  /** Two sequences of readings with the same flattening are equal. */
  lemma FlattenInjective(a: seq<Reading>, b: seq<Reading>)
    requires Flatten(a) == Flatten(b)
    ensures a == b
  {
    assert |a| == |b|;
    forall i | 0 <= i < |a|
      ensures a[i] == b[i]
    {
      var fa, fb := Fields(a[i]), Fields(b[i]);
      assert fa == Slot(Flatten(a), i) == fb;
      assert fa[0] == fb[0] && fa[1] == fb[1] && fa[2] == fb[2];
    }
  }

  /**
    The oldest-first flattening of a window is the newest-first feature
    vector of the reversed window: reading slot i of one holds what reading
    slot |w|-1-i of the other holds.
   */
  lemma OldestFirstIsReadingwiseReverse(w: seq<Reading>)
    ensures Flatten(w) == FeatureVector(Reverse(w))
    ensures forall i | 0 <= i < |w| :: Slot(Flatten(w), i) == Slot(FeatureVector(w), |w| - 1 - i)
  {
    ReverseReverse(w);
  }

  /** The two flattenings agree exactly on windows that read the same both ways. */
  lemma OrdersAgreeIffPalindrome(w: seq<Reading>)
    ensures Flatten(w) == FeatureVector(w) <==> Reverse(w) == w
  {
    if Flatten(w) == FeatureVector(w) {
      FlattenInjective(w, Reverse(w));
    }
  }
}
